=== FILE: README.md ===
# nonable-admin list pipeline and record builders, in Dafny

nonable-admin is a React admin dashboard over a document store. Its three
list pages (Client, Driver, Ndis) share one pipeline, copied into each page:
- a three-way comparator on the chosen column;
- a stable sort that breaks ties by original index;
- `applySortFilter`, which, for a non-empty search query, throws the sort
  away and returns the matching rows of the original array instead;
- a status projection on the Client and Driver pages;
- the page window `slice(page * rowsPerPage, …)`;
- the `emptyRows` filler count.

Around the pipeline sit small record builders:
- the soft delete of a client or driver;
- the row-selection toggle and select-all;
- the booking and user form submits, which build the documents written to
  the store;
- the edit-mode lookup by `id`.

The model writes the pipeline once, for any row type. It is parameterised
by a key selector (`C -> T -> Key`), the searched field (`T -> string`) and
the projection (`T -> bool`). Each page instantiates it. Store writes are
values: a `SetRequest` (full overwrite of one document), an added document,
or an account creation. `ApplySet` gives the next snapshot, so that
properties about "after the write" can be stated.

Modules:
- `Keys`: cell values and the comparators.
- `Text`: the case-insensitive `indexOf` search test.
- `Sequences`: `filter`, `indexOf`, `slice`.
- `StableSort`: the index-tagged sort.
- `ListPipeline`: `applySortFilter`, the window, `emptyRows`, the rendered view.
- `Table`: the table state and its handlers.
- `Records`: snapshot rows, overwrites, the lookup by id.
- `Selection`: select-all and the toggle.
- `ClientPage`, `DriverPage`, `NdisPage`: the three list pages.
- `Bookings`: the booking form.
- `Users`: the user form.

Sorting note. JavaScript does not fix the algorithm of `Array.prototype.sort`.
The model sorts by insertion. `StableSort.AnySortAgrees` proves that every
arrangement of the tagged rows that is strictly sorted by the tie-broken
comparator is that same arrangement. So whatever algorithm the engine uses,
it gives the modelled result.

## Model

| member | source | states |
|---|---|---|
| Keys.CodeUnits | src/pages/Client.js:51-57 | A character below U+10000 is the single code unit of its own value; any other character is a high surrogate followed by a low surrogate that decode back to it. Every unit is below 0x10000. |
| Keys.Utf16 | src/pages/Client.js:51-57 | A string's code units number between its length and twice its length. |
| Keys.CodeUnitsLead | src/pages/Client.js:51-57 | A character's first code unit is a high surrogate exactly when the character lies above U+FFFF. |
| Keys.CodeUnitsInjective | src/pages/Client.js:51-57 | Distinct characters have distinct code units. |
| Keys.Utf16Injective | src/pages/Client.js:51-57 | Distinct strings have distinct code-unit sequences. |
| Keys.StrLessByCodeUnit | src/pages/Client.js:51-57 | JavaScript's `<` compares code units, so U+1F600 sorts before U+FFFD although its code point is larger. |
| Keys.StrLessIrreflexive | src/pages/Client.js:52-57 | No string is less than itself under JavaScript's `<` on strings. |
| Keys.StrLessTransitive | src/pages/Client.js:52-57 | String `<` is transitive. |
| Keys.StrLessTotal | src/pages/Client.js:52-57 | Of two distinct strings, one is less than the other: the code-unit encoding loses no information. |
| Keys.LessStrictTotalOrder | src/pages/Client.js:52-57 | The order on cell values (strings by UTF-16 code unit, numbers) is a strict total order: irreflexive, asymmetric, transitive, total. |
| Keys.DescendingComparator | src/pages/Client.js:51-59 | -1 exactly when `a` is greater, 1 exactly when `b` is greater, 0 exactly when the cells are equal; strings compare by UTF-16 code unit. |
| Keys.Comparator | src/pages/Client.js:61-65 | `getComparator`: negative exactly when `a` goes first in the chosen direction, 0 exactly on equal cells, positive exactly when `b` goes first; always in -1..1. Strings compare by UTF-16 code unit. |
| Keys.ComparatorNegation | src/pages/Client.js:61-65 | The ascending comparator is the exact negation of the descending one; each is antisymmetric. |
| Keys.ComparatorTransitive | src/pages/Client.js:51-65 | Both comparators are consistent orderings: "not after" and "before" chain transitively. |
| Text.LowerAt | src/pages/Client.js:77 | `toLowerCase` maps each character to its lower-case form, position by position (ASCII). |
| Text.LowerIdempotent | src/pages/Client.js:77 | Lower-casing twice is lower-casing once. |
| Text.SearchFromFirst | src/pages/Client.js:77 | The scan answers -1 exactly when the needle occurs at no position from `from` on; otherwise it answers the first such position. |
| Text.StrIndexOf | src/pages/Client.js:77 | `String.prototype.indexOf` answers -1 or a position where the needle occurs. |
| Text.StrIndexOfFirst | src/pages/Client.js:77 | `indexOf` is -1 exactly when the needle occurs nowhere; otherwise no occurrence starts before its answer. |
| Text.OccursInSomewhere | src/pages/Client.js:77 | The suffix-wise containment test holds exactly when the needle occurs at some position. |
| Text.MatchesIff | src/pages/Client.js:77 | The search test is `lower(field).indexOf(lower(query)) !== -1`. The empty query matches every field, and letter case of field or query does not matter. |
| Sequences.Filter | src/pages/Client.js:75-78 | `filter` returns no more elements than it was given; all of them satisfy the predicate and come from the input. |
| Sequences.KeptFromMembers | src/pages/Client.js:75-78 | The positions the filter keeps are exactly those whose element satisfies the predicate. |
| Sequences.KeptFromPicksOut | src/pages/Client.js:75-78 | The filter result is picked out of the input at those positions, which strictly increase. |
| Sequences.FilterIsSubsequence | src/pages/Client.js:75-78 | Same as above for the whole array: the result is the subsequence of satisfying elements, in input order. |
| Sequences.FilterFinds | src/pages/Client.js:75-78 | Every element that satisfies the predicate survives the filter. |
| Sequences.PicksOutCompose | src/pages/Client.js:174-176 | A subsequence of a subsequence is a subsequence of the original, at the composed positions. |
| Sequences.FilterFirst | src/pages/Client.js:75-78 | The filter is empty exactly when no element satisfies the predicate; otherwise its first element is the first satisfying one. |
| Sequences.FilterKeepsAll | src/pages/Ndis.js:187-188 | A predicate every element satisfies removes nothing. |
| Sequences.IndexOf | src/pages/Ndis.js:114 | `Array.prototype.indexOf`: -1 exactly when the element is absent; otherwise a position holding it, with no earlier occurrence. |
| Sequences.Slice | src/pages/Client.js:211-212 | `slice(start, end)` clamps `end` to the length and gives the elements from `start` on, or nothing when the range is empty. |
| StableSort.TieBreakLaws | src/pages/Client.js:69-73 | The index tie-break turns the comparator into a strict total order on tagged rows with distinct indexes. |
| StableSort.Insert | src/pages/Client.js:69-73 | Inserting a tagged row adds exactly that row (multiset). |
| StableSort.SortTagged | src/pages/Client.js:68-73 | Sorting the tagged rows permutes them. |
| StableSort.InsertSorted | src/pages/Client.js:69-73 | Insertion keeps the tagged rows strictly sorted by the tie-broken comparator. |
| StableSort.SortTaggedSorted | src/pages/Client.js:68-73 | The sorted tagged rows are strictly sorted by the tie-broken comparator. |
| StableSort.SortedHeadsAgree | src/pages/Client.js:68-73 | Two strictly sorted arrangements of the same tagged rows start with the same row. |
| StableSort.SortedTail | src/pages/Client.js:68-73 | Dropping the first row of a strictly sorted arrangement leaves it strictly sorted. |
| StableSort.SortedIsUnique | src/pages/Client.js:68-73 | Two strictly sorted arrangements of the same tagged rows are equal. |
| StableSort.FirstsInsert | src/pages/Client.js:80 | Dropping the tags after an insertion is a permutation of the rows. |
| StableSort.FirstsSort | src/pages/Client.js:68-80 | Dropping the tags after the sort gives a permutation of the untagged rows. |
| StableSort.SortedPositions | src/pages/Client.js:68-80 | The original positions of the sorted rows are a rearrangement of 0..n-1. |
| StableSort.TaggedPermutation | src/pages/Client.js:68 | A rearrangement of the tagged rows pairs every row with its own original index, and every index occurs. |
| StableSort.StrictlySortedMeansStable | src/pages/Client.js:69-73 | A strictly sorted arrangement is ordered by the comparator, and equal rows keep their original relative order. |
| StableSort.SortStable | src/pages/Client.js:67-73 | The empty-query result is a permutation of the input. |
| StableSort.SortStableOrdered | src/pages/Client.js:67-73 | The empty-query result is ordered by the comparator, row `i` is input row `SortedPositions[i]`, and equal rows keep their input order, in either direction. |
| StableSort.AnySortAgrees | src/pages/Client.js:69-73 | Any strictly sorted rearrangement of the tagged rows, whatever produced it, is the modelled sort, and untagging it gives `SortStable`. |
| Records.WithId | src/pages/AddEditJobs.js:90 | The edit lookup returns snapshot rows whose id is the query id, picked in snapshot order. It is empty exactly when no row has that id, and a missing query id finds nothing. |
| Records.FindById | src/pages/Client.js:136 | `filter(id === uid)[0]` is a row with that id, with no earlier row sharing the id. |
| Records.ApplySet | src/pages/Client.js:137 | After `doc(id).set(data)`, every row with that id holds the written document and every other row is unchanged. |
| Records.NoHitsFrom | src/pages/AddEditJobs.js:90 | A lookup over rows none of which has the id finds nothing. |
| Records.AtMostOneHitFrom | src/pages/AddEditJobs.js:90 | With unique ids the lookup finds at most one row. |
| Records.WithIdAtMostOne | src/pages/AddEditUsers.js:52 | With unique document ids the edit lookup finds at most one row. |
| Table.InitialState | src/pages/Client.js:84-90 | A fresh table is on page 0, ascending on the given column, with no filter. |
| Table.RequestSort | src/pages/Client.js:153-157 | `handleRequestSort` sorts the clicked column. It goes descending exactly when that column was sorted ascending, and changes nothing else. |
| Table.RequestSortTwice | src/pages/Client.js:153-157 | A second click on the sorted column restores the state; two clicks on another column leave it descending. |
| Table.ChangeRowsPerPage | src/pages/Client.js:163-166 | A new page size resets to page 0 and keeps the sort and filter. |
| Selection.SelectAll | src/pages/Driver.js:140-147 | Checked: the label of every row, in snapshot order. Unchecked: nothing. |
| Selection.Toggle | src/pages/Ndis.js:113-129 | An absent name is appended. A present name loses exactly its first occurrence, and the rest keep their order (multiset minus one). |
| Selection.ToggleTwice | src/pages/Ndis.js:113-129 | Toggling an absent name twice restores the selection. |
| Selection.RemoveAtDistinct | src/pages/Ndis.js:122-126 | Cutting one position out of a duplicate-free selection removes that element and keeps the rest duplicate-free. |
| Selection.ToggleDistinct | src/pages/Ndis.js:113-129 | On a duplicate-free selection, the name is selected afterwards exactly when it was not before, and no duplicate appears. |
| ListPipeline.Search | src/pages/Client.js:74-79 | The query branch returns rows of the input. |
| ListPipeline.SearchMatches | src/pages/Client.js:74-79 | Every row the query branch returns contains the query. |
| ListPipeline.SearchEmpty | src/pages/Client.js:74-79 | The query branch is empty exactly when no row matches. |
| ListPipeline.ApplySortFilter | src/pages/Client.js:67-81 | Every result row comes from the input. |
| ListPipeline.ApplySortFilterPermutes | src/pages/Client.js:67-81 | With an empty query the result is a permutation of the input. |
| ListPipeline.ApplySortFilterMatches | src/pages/Client.js:74-81 | With a non-empty query every result row contains it. |
| ListPipeline.ApplySortFilterEmpty | src/pages/Client.js:67-81 | The result is empty exactly when the input is empty, or when a non-empty query matches no row. |
| ListPipeline.SortBranchOrder | src/pages/Client.js:67-73 | With an empty query, the rows are ordered by the comparator, each traced to its input position, and ties keep input order. |
| ListPipeline.SearchBranchOrder | src/pages/Client.js:74-79 | With a query, the result is exactly the subsequence of matching input rows, in input order: no sorting happens. |
| ListPipeline.Window | src/pages/Client.js:211-212 | The window holds at most `rowsPerPage` rows, consecutive from position `page * rowsPerPage`. It is empty past the end, full before the last page, and holds the remainder on the last page. |
| ListPipeline.ApplySortFilterFinds | src/pages/Client.js:67-81 | Every input row is in the result when there is no query, and every matching row when there is one. |
| ListPipeline.WindowOfFilter | src/pages/Client.js:176 | The windowed rows of a projected list come from the list and pass the projection. |
| ListPipeline.WindowOfFilterKeeps | src/pages/Client.js:176 | Any property every row of a list has is had by every windowed row of a projection of it. |
| ListPipeline.WindowFindsEveryRow | src/pages/Client.js:211-212 | Row `k` of a list is entry `k % rowsPerPage` of page `k / rowsPerPage`. |
| ListPipeline.EmptyRows | src/pages/Client.js:172 | `emptyRows` is 0 on page 0, and otherwise `max(0, (1 + page) * rowsPerPage - total)`. It is never negative and uses the unfiltered total. |
| ListPipeline.EmptyRowsFillPage | src/pages/Client.js:172 | On a later page that is not past the end of the snapshot, the window of the snapshot plus the filler make up one full page. |
| ListPipeline.EmptyRowsUndercount | src/pages/Client.js:172-176 | On a later page that is not past the end of the snapshot, when the shown list is no longer than the snapshot, window plus filler never exceed one page. |
| ListPipeline.RenderPage | src/pages/Client.js:172-178 | The view holds at most one page of rows, counts the whole snapshot, and has no filler on page 0. |
| ListPipeline.PicksOutWindow | src/pages/Client.js:211-212 | The same page of two aligned sequences keeps one picked out of a third by the other. |
| ListPipeline.PageOf | src/pages/Client.js:211-212 | Position `k` falls on page `p` exactly when `p * rowsPerPage <= k < (p + 1) * rowsPerPage`. |
| ListPipeline.RenderPageWindow | src/pages/Client.js:174-212 | The listed rows are exactly the page window of the rows `keep` lets through of the `applySortFilter` result; each such row whose position falls on the page is listed at its offset in the page. |
| ListPipeline.RenderPageLists | src/pages/Client.js:174-212 | The listed rows are picked out of the `applySortFilter` result at increasing positions: the page window of exactly the positions whose row `keep` lets through. |
| ListPipeline.RenderPageSorted | src/pages/Client.js:67-81 | With no query the listed rows follow the comparator of the chosen column and direction. |
| ListPipeline.RenderPageInSnapshotOrder | src/pages/Client.js:74-81 | With a query the listed rows are picked out of the snapshot at increasing positions. |
| ListPipeline.RenderPageComplete | src/pages/Client.js:174-212 | Every snapshot row that passes `keep` and contains the query (every row, with no query) is listed on some page. |
| ListPipeline.RenderPageRows | src/pages/Client.js:174-176 | Every shown row is a snapshot row that passes the projection. |
| ListPipeline.RenderPageMatches | src/pages/Client.js:174-176 | With a query, every shown row contains it. |
| ListPipeline.RenderPageNotFound | src/pages/Client.js:178 | "Not found" holds exactly when the snapshot is empty, or when a query matches nothing. It is checked before the projection. |
| ClientPage.Render | src/pages/Client.js:172-178 | The client view holds at most one page and counts every client. |
| ClientPage.RenderShowsActive | src/pages/Client.js:174-178 | Every listed client is an active snapshot client. "Not found" holds exactly when there are no clients or no client name contains the query. |
| ClientPage.RenderListsEveryActive | src/pages/Client.js:174-212 | Every active client whose name contains the query (every active client, with no query) is listed on some page. |
| ClientPage.RenderOrder | src/pages/Client.js:174-212 | With no query the listed clients follow the chosen column's comparator; with a query they keep their snapshot order. |
| ClientPage.DeleteClient | src/pages/Client.js:134-149 | The delete overwrites document `uid` with that client's ten fields unchanged and status `non-active`. |
| ClientPage.DeletedClientHidden | src/pages/Client.js:134-149 | After the delete is applied, the client is listed under no table state, and every other client row is unchanged. |
| ClientPage.SearchWithoutMatch | src/pages/Client.js:174-178 | A query that matches no client name lists nothing and raises "not found". |
| DriverPage.Render | src/pages/Driver.js:162-168 | The driver view holds at most one page and counts every driver. |
| DriverPage.RenderShowsActive | src/pages/Driver.js:164-168 | Every listed driver is an active snapshot driver. "Not found" holds exactly when there are no drivers or no driver name contains the query, checked before the projection. |
| DriverPage.RenderListsEveryActive | src/pages/Driver.js:164-208 | Every active driver whose name contains the query (every active driver, with no query) is listed on some page. |
| DriverPage.RenderOrder | src/pages/Driver.js:164-208 | With no query the listed drivers follow the chosen column's comparator; with a query they keep their snapshot order. |
| DriverPage.Rewrite | src/pages/Driver.js:120-130 | The driver overwrite is the old driver with no date of birth and the given `onWork` and `status`: every other field is kept. |
| DriverPage.RewriteTwice | src/pages/AddEditJobs.js:96-106 | Rewriting a rewritten driver equals one rewrite with the last flags. |
| DriverPage.DeleteDriver | src/pages/Driver.js:117-130 | The delete overwrites document `uid` with that driver's seven listed fields, `onWork` false, status `non-active`, and no date of birth. |
| DriverPage.DeletedDriverHidden | src/pages/Driver.js:117-132 | After the delete is applied, the driver is listed under no table state, and every other driver row is unchanged. |
| DriverPage.SelectAllDrivers | src/pages/Driver.js:140-147 | Select-all selects every driver's name in snapshot order, or clears the selection. |
| DriverPage.SelectAllMarksEveryRow | src/pages/Driver.js:221 | After select-all, every listed driver's row is marked selected. |
| NdisPage.InitialView | src/pages/Ndis.js:74-80 | The page opens on page 0, ascending by item number, with 5 rows a page and no filler. |
| NdisPage.Render | src/pages/Ndis.js:144-148 | The item view holds at most one page and counts every item. |
| NdisPage.RenderIsWindow | src/pages/Ndis.js:146-148 | There is no projection: the rows are a window of the `applySortFilter` result itself. They are snapshot items, they contain a non-empty query in the item number, and "not found" means nothing was found. |
| NdisPage.RenderListsEveryItem | src/pages/Ndis.js:146-188 | Every item whose item number contains the query (every item, with no query) is listed on some page. |
| NdisPage.RenderOrder | src/pages/Ndis.js:146-188 | With no query the listed items follow the chosen column's comparator; with a query they keep their snapshot order. |
| NdisPage.FirstPageListsAll | src/pages/Ndis.js:146-188 | With no query, on page 0, with a page large enough, every item is listed exactly once. |
| NdisPage.RenderAsWritten | src/pages/Ndis.js:144-148 | The item view as written, with the "Plan Manager" header sorting on the absent `planManager` field, holds at most one page and counts every item. |
| NdisPage.PlanManagerSortKeepsSnapshot | src/pages/Ndis.js:34-49 | As written, sorting on "Plan Manager" in either direction with no query lists the snapshot's own window: every comparison is a tie and the index tie-break keeps snapshot order. |
| NdisPage.PlanManagerSortsByDetail | src/pages/Ndis.js:228-233 | Keyed on `planManagementDetail`, with no query the listed items are in non-decreasing detail ascending and non-increasing detail descending. |
| NdisPage.PairByDetail | src/pages/Ndis.js:228-233 | With the corrected key, two items of different detail on one ascending page are listed smaller detail first. |
| NdisPage.PlanManagerSortIgnoresDetail | src/pages/Ndis.js:34 | A plan-managed item before an NDIS-managed one, sorted ascending on "Plan Manager": as written they stay in that order; with the corrected key they swap. |
| NdisPage.ToggleItem | src/pages/Ndis.js:113-129 | A row click appends the row's client when absent, and removes one occurrence when present. |
| NdisPage.ClickTwice | src/pages/Ndis.js:113-129 | Clicking an unticked row ticks it; clicking again restores the selection. |
| NdisPage.SelectAllNames | src/pages/Ndis.js:104-111 | Select-all as written: every item's `name`, or nothing. |
| NdisPage.SelectAllNamesMissesRow | src/pages/Ndis.js:104-111 | An item whose name differs from its client stays unticked after select-all. |
| NdisPage.SelectAllClients | src/pages/Ndis.js:104-111 | Corrected select-all: every item's `client`, or nothing. |
| NdisPage.SelectAllClientsTicksEveryRow | src/pages/Ndis.js:201 | After the corrected select-all, every item, hence every listed row, is ticked; unchecking ticks none. |
| Bookings.MissingJobFields | src/pages/AddEditJobs.js:23-33 | The form is complete exactly when the seven texts are non-empty, the booking date parses, and distance and hour are given. |
| Bookings.NotesAreOptional | src/pages/AddEditJobs.js:23-33 | The notes never affect validation. |
| Bookings.InitialJobValues | src/pages/AddEditJobs.js:90 | Edit mode opens with the booking whose id is the query id; with no such booking, the blank form. |
| Bookings.BlankJobMissing | src/pages/AddEditJobs.js:168-181 | The blank form has distance and hour (both 0) but misses every required text. |
| Bookings.DriverPaid | src/pages/AddEditJobs.js:93-94 | The pay is never negative on non-negative inputs. It reduces to the distance term with no hours, and to the hourly term with no distance. |
| Bookings.DriverPaidExample | src/pages/AddEditJobs.js:93-94 | 2 hours and 10 km at 3 per hour and 1.5 per km pay 21. |
| Bookings.BookingRecord | src/pages/AddEditJobs.js:111-129 | The booking copies the form's values and pay. It has the submission time, no expense, reason `none`, `duplicate` true, unpaid, status 0. |
| Bookings.BookingRecordDetermined | src/pages/AddEditJobs.js:111-153 | Those facts determine the booking: no other field is written. |
| Bookings.SubmitBooking | src/pages/AddEditJobs.js:92-155 | An empty `variable` collection or an unknown driver means no write. Otherwise the driver is rewritten as on-work and active. Then "Add" adds the booking, and any other `act` overwrites the booking with the query id, stopping when there is none. |
| Bookings.AddAndEditWriteSameBooking | src/pages/AddEditJobs.js:107-153 | Add and edit write the same driver document and the same booking, with the same pay. |
| Bookings.EditResetsBooking | src/pages/AddEditJobs.js:130-153 | After an edit, the booking is unpaid with status 0 and carries the form's values; other bookings are unchanged. |
| Bookings.SubmitPutsDriverToWork | src/pages/AddEditJobs.js:95-106 | After a submit, the chosen driver is on work and active; other drivers are unchanged. |
| Users.MissingUserFields | src/pages/AddEditUsers.js:23-28 | The form is complete exactly when name, role and password are non-empty and the e-mail is non-empty and well formed. |
| Users.AvatarIsOptional | src/pages/AddEditUsers.js:23-28 | The avatar never affects validation, and the blank form misses all four fields. |
| Users.InitialUserValues | src/pages/AddEditUsers.js:52 | Edit mode opens with the user whose id is the query id; with no such user, the all-empty form. |
| Users.AvatarOrDefault | src/pages/AddEditUsers.js:73 | A missing or empty avatar becomes `test`; any other is kept; the result is never empty. |
| Users.EditedUser | src/pages/AddEditUsers.js:70-77 | The edited user carries the form's fields, the defaulted avatar, and status `active`. |
| Users.EditIsIdempotent | src/pages/AddEditUsers.js:65-77 | Saving the edit form again unchanged writes the same user. |
| Users.SubmitUser | src/pages/AddEditUsers.js:54-79 | "Add" creates the account and, when the form has an avatar, adds the user as given, active; with no avatar the add carries an `undefined` field the store refuses, so only the account is created. Any other `act` overwrites the user with the query id, with the defaulted avatar, and writes nothing when there is none. |
| Users.EditReactivates | src/pages/AddEditUsers.js:65-77 | After an edit, the user is active with a non-empty avatar; other users are unchanged. |

## Left out

- Store I/O (`onSnapshot`, `add`, `set`, `createUserWithEmailAndPassword`) is out. Each write is a value the submit returns. Snapshots are parameters, and so is the cache module (`clientDataGet` and the like).
- React state, rendering, `TablePagination`, the modals and the 400 ms submit delay are out. The handlers that only store an event value (`handleChangePage`, `handleFilterByName`) are left out too. A new filter does not reset the page.
- The `{ id: '' }` action column of each table is not a sortable column.
- Keys.Less: JavaScript's `<` on mixed or undefined values is not modelled. Cells are strings or numbers, and a number sorts before a string.
- DriverPage.Cell: a driver without `dobNumber` sorts as the empty string.
- Text.Lower: only ASCII letters are lower-cased.
- Text.StrIndexOf: positions count characters, not UTF-16 code units. The pages only test the answer against -1, where the two agree.
- Bookings.DriverPaid: arithmetic is on reals, not IEEE doubles.
- Dates are opaque text. `new Date(...)` parsing and `moment` formatting are left out. The submission time is the parameter `now`, and date validity is the predicate `isDate`.
- Users.MissingUserFields: e-mail syntax is the predicate `isEmail`, not the validation library's pattern.
- Formik and Yup internals are left out.
- Account creation is one write value. Its failure (an e-mail already in use) is not modelled.
- ClientPage.DeleteClient and DriverPage.DeleteDriver require `uid` to be in the snapshot. The source crashes on a lookup miss, and the page only deletes rows it displayed.
- Bookings.SubmitBooking: the submit stops before any write when the driver id is unknown. The rewrite would carry `undefined` fields, which the store refuses. The form's driver select offers only loaded drivers.
- The driver soft delete and the booking's driver rewrite are full overwrites, so they drop `dobNumber` from the driver. The driver soft delete is documented as keeping every field. The code does not, and the model follows the code.
- NdisPage.Cell: the "Plan Manager" column is keyed on `planManagementDetail`, the corrected column of the second finding below. `NdisPage.RenderAsWritten` keeps the header's `planManager` id, which the items do not carry, as one constant cell.
- `src/routes.js` is a static route table and is not part of this model.

## Findings

| source | as written | input that shows it | evidently intended | confidence | as-written member | corrected member |
|---|---|---|---|---|---|---|
| src/pages/Ndis.js:104-111 | select-all stores each item's `name`, but a row is ticked when `selected.indexOf(client) !== -1` (line 201) | one item with client `Alice` and an empty name: after select-all its row stays unticked | select-all stores each item's `client`, so every row is ticked | medium, not executed | NdisPage.SelectAllNamesMissesRow | NdisPage.SelectAllClientsTicksEveryRow |
| src/pages/Ndis.js:34 | the "Plan Manager" header sorts on `planManager`, but the item rows carry and show `planManagementDetail` (lines 198, 231-232), so every comparison is a tie | items with details 1 and 0, in that order, sorted ascending on "Plan Manager": they stay in that order | the column sorts on `planManagementDetail`, as the client page's "Plan Management Detail" column does (src/pages/Client.js:44) | medium, not executed | NdisPage.PlanManagerSortIgnoresDetail | NdisPage.PlanManagerSortsByDetail |

=== FILE: add_edit_jobs.dfy ===
/** The booking form: its required fields, the edit-mode lookup with blank
    defaults, the driver pay formula, and the writes a submit issues (the
    chosen driver's rewrite, then the new or overwritten booking). */
module Bookings {
  import opened Optional
  import opened Records
  import opened DriverPage

  /** The first document of the `variable` collection: `emp_rate` per hour
      and `driver_kms_m` per kilometre. */
  datatype Rates = Rates(empRate: real, kmRate: real)

  /** The form values. Dates are kept as the text the form holds. */
  datatype JobForm = JobForm(
    customer: string,
    bookingDate: string,
    pickUp: string,
    dropOff: string,
    price: string,
    profit: string,
    driver: string,
    notes: string,
    distance: Option<real>,
    hour: Option<real>)

  /** A booking document. */
  datatype BookingDoc = BookingDoc(
    customer: string,
    driver: string,
    notes: string,
    pickUp: string,
    price: string,
    profit: string,
    driverPaid: real,
    bookingDate: string,
    dropOff: string,
    expensePrice: real,
    expenseReason: string,
    hour: real,
    distance: real,
    date: string,
    duplicate: bool,
    paid: bool,
    jobStat: int)

  type JobRow = Row<BookingDoc>

  /** The fields the validation schema marks as required. */
  datatype JobField = Customer | BookingDate | PickUp | DropOff | Price | Profit | Driver | Distance | Hour

  /** The required fields the form leaves unusable: an empty text, a
      booking date `isDate` rejects, or a missing number. `notes` is not
      checked. Date parsing is the parameter `isDate`. */
  function MissingJobFields(f: JobForm, isDate: string -> bool): (r: set<JobField>)
    ensures r == {} <==>
      f.customer != "" && isDate(f.bookingDate) && f.pickUp != "" && f.dropOff != "" &&
      f.price != "" && f.profit != "" && f.driver != "" && f.distance.Some? && f.hour.Some?
  {
    (if f.customer == "" then {Customer} else {}) +
    (if !isDate(f.bookingDate) then {BookingDate} else {}) +
    (if f.pickUp == "" then {PickUp} else {}) +
    (if f.dropOff == "" then {DropOff} else {}) +
    (if f.price == "" then {Price} else {}) +
    (if f.profit == "" then {Profit} else {}) +
    (if f.driver == "" then {Driver} else {}) +
    (if f.distance.None? then {Distance} else {}) +
    (if f.hour.None? then {Hour} else {})
  }

  /** The notes never affect validation. */
  lemma NotesAreOptional(f: JobForm, isDate: string -> bool, notes: string)
    ensures MissingJobFields(f.(notes := notes), isDate) == MissingJobFields(f, isDate)
  {
  }

  /** The blank form of the add mode. */
  const BlankJob: JobForm := JobForm("", "", "", "", "", "", "", "", Some(0.0), Some(0.0))

  /** The form values a stored booking opens with in edit mode. */
  function FormOf(b: BookingDoc): JobForm {
    JobForm(b.customer, b.bookingDate, b.pickUp, b.dropOff, b.price, b.profit, b.driver, b.notes,
      Some(b.distance), Some(b.hour))
  }

  /** `filteredJobs[0] || { ...blank }`: the booking whose id is the query
      id, or the blank form when there is none. */
  function InitialJobValues(jobs: seq<JobRow>, id: Option<string>): (r: JobForm)
    ensures (forall i :: 0 <= i < |jobs| ==> id != Some(jobs[i].id)) ==> r == BlankJob
    ensures (exists i :: 0 <= i < |jobs| && id == Some(jobs[i].id)) ==>
      exists i :: 0 <= i < |jobs| && id == Some(jobs[i].id) && r == FormOf(jobs[i].data)
  {
    var found := WithId(jobs, id);
    if |found| == 0 then BlankJob else FormOf(found[0].data)
  }

  /** The blank form cannot be submitted: it has its numbers (both 0) but
      every required text is missing. */
  lemma BlankJobMissing(isDate: string -> bool)
    requires !isDate("")
    ensures MissingJobFields(BlankJob, isDate) == {Customer, BookingDate, PickUp, DropOff, Price, Profit, Driver}
  {
  }

  /** `emp_rate * hour + driver_kms_m * distance`. */
  function DriverPaid(rates: Rates, hour: real, distance: real): (r: real)
    ensures rates.empRate >= 0.0 && rates.kmRate >= 0.0 && hour >= 0.0 && distance >= 0.0 ==> r >= 0.0
    ensures hour == 0.0 ==> r == rates.kmRate * distance
    ensures distance == 0.0 ==> r == rates.empRate * hour
  {
    rates.empRate * hour + rates.kmRate * distance
  }

  /** Two hours and ten kilometres at 3 per hour and 1.5 per kilometre pay
      21. */
  lemma DriverPaidExample()
    ensures DriverPaid(Rates(3.0, 1.5), 2.0, 10.0) == 21.0
  {
  }

  /** The booking is a fresh one: no expense, not paid, status 0. */
  predicate IsFreshBooking(b: BookingDoc) {
    b.expensePrice == 0.0 && b.expenseReason == "none" && b.duplicate && !b.paid && b.jobStat == 0
  }

  /** The booking carries the form's values. */
  predicate CopiesForm(b: BookingDoc, f: JobForm) {
    && b.customer == f.customer && b.driver == f.driver && b.notes == f.notes
    && b.pickUp == f.pickUp && b.dropOff == f.dropOff && b.price == f.price && b.profit == f.profit
    && b.bookingDate == f.bookingDate
    && f.hour == Some(b.hour) && f.distance == Some(b.distance)
  }

  /** The document both submit branches write: the form's values, the pay,
      the submission time `now`, and the fresh-booking flags. */
  function BookingRecord(values: JobForm, rates: Rates, now: string): (b: BookingDoc)
    requires values.distance.Some? && values.hour.Some?
    ensures CopiesForm(b, values) && IsFreshBooking(b)
    ensures b.driverPaid == DriverPaid(rates, values.hour.value, values.distance.value)
    ensures b.date == now
  {
    BookingDoc(
      customer := values.customer,
      driver := values.driver,
      notes := values.notes,
      pickUp := values.pickUp,
      price := values.price,
      profit := values.profit,
      driverPaid := DriverPaid(rates, values.hour.value, values.distance.value),
      bookingDate := values.bookingDate,
      dropOff := values.dropOff,
      expensePrice := 0.0,
      expenseReason := "none",
      hour := values.hour.value,
      distance := values.distance.value,
      date := now,
      duplicate := true,
      paid := false,
      jobStat := 0)
  }

  /** A booking is determined by the values it copies, its pay and its time:
      two records that agree on those are the same record. */
  lemma BookingRecordDetermined(values: JobForm, rates: Rates, now: string, b: BookingDoc)
    requires values.distance.Some? && values.hour.Some?
    requires CopiesForm(b, values) && IsFreshBooking(b)
    requires b.driverPaid == DriverPaid(rates, values.hour.value, values.distance.value) && b.date == now
    ensures b == BookingRecord(values, rates, now)
  {
  }

  /** The store writes a submit issues, in order. */
  datatype BookingWrite =
    | SetDriver(driverReq: SetRequest<DriverDoc>)
    | AddJob(job: BookingDoc)
    | SetJob(jobReq: SetRequest<BookingDoc>)

  /** `handleSubmit` on validated values. The pay reads `variable[0]`, so an
      empty `variable` collection stops the submit before any write; so does
      a driver id missing from the snapshot, whose rewrite would carry
      undefined fields the store refuses. Otherwise the driver is rewritten
      as on-work and active, then the booking is added (`act` is "Add") or
      written over the booking found by the edit lookup; when that lookup
      finds nothing the submit stops after the driver write. */
  function SubmitBooking(act: Option<string>, id: Option<string>, values: JobForm, variable: seq<Rates>,
                         drivers: seq<DriverRow>, jobs: seq<JobRow>, now: string, isDate: string -> bool): (r: seq<BookingWrite>)
    requires MissingJobFields(values, isDate) == {}
    ensures |variable| == 0 || !HasId(drivers, values.driver) ==> r == []
    ensures |variable| > 0 && HasId(drivers, values.driver) ==>
      && 1 <= |r| <= 2
      && r[0].SetDriver? && r[0].driverReq.docId == values.driver
      && (exists i :: 0 <= i < |drivers| && drivers[i].id == values.driver &&
            r[0].driverReq.doc == drivers[i].data.(dobNumber := None, onWork := true, status := Active))
      && (|r| == 2 <==> act == Some("Add") || exists i :: 0 <= i < |jobs| && id == Some(jobs[i].id))
    ensures |r| == 2 && act == Some("Add") ==> r[1] == AddJob(BookingRecord(values, variable[0], now))
    ensures |r| == 2 && act != Some("Add") ==>
      r[1].SetJob? && id == Some(r[1].jobReq.docId) && r[1].jobReq.doc == BookingRecord(values, variable[0], now)
  {
    if |variable| == 0 || !HasId(drivers, values.driver) then []
    else
      var rates := variable[0];
      var driverDetail := FindById(drivers, values.driver).data;
      var driverWrite := SetDriver(SetRequest(values.driver, Rewrite(driverDetail, true, Active)));
      var record := BookingRecord(values, rates, now);
      if act == Some("Add") then [driverWrite, AddJob(record)]
      else
        var filteredJobs := WithId(jobs, id);
        if |filteredJobs| == 0 then [driverWrite]
        else [driverWrite, SetJob(SetRequest(filteredJobs[0].id, record))]
  }

  /** The pay stored by a submit is the same in both branches: whatever
      `act` says, the booking written carries the same document. */
  lemma AddAndEditWriteSameBooking(id: Option<string>, values: JobForm, variable: seq<Rates>,
                                   drivers: seq<DriverRow>, jobs: seq<JobRow>, now: string, isDate: string -> bool)
    requires MissingJobFields(values, isDate) == {}
    requires |variable| > 0 && HasId(drivers, values.driver)
    requires exists i :: 0 <= i < |jobs| && id == Some(jobs[i].id)
    ensures var added := SubmitBooking(Some("Add"), id, values, variable, drivers, jobs, now, isDate);
      var edited := SubmitBooking(Some("Edit"), id, values, variable, drivers, jobs, now, isDate);
      |added| == 2 && |edited| == 2 && added[0] == edited[0] && added[1].job == edited[1].jobReq.doc
  {
  }

  /** Editing a booking resets it: in the next snapshot the edited booking
      is unpaid with status 0 and carries the form's values, whatever it held
      before, and every other booking is unchanged. */
  lemma EditResetsBooking(act: Option<string>, id: Option<string>, values: JobForm, variable: seq<Rates>,
                          drivers: seq<DriverRow>, jobs: seq<JobRow>, now: string, isDate: string -> bool, k: nat)
    requires MissingJobFields(values, isDate) == {}
    requires act != Some("Add")
    requires |variable| > 0 && HasId(drivers, values.driver)
    requires k < |jobs| && id == Some(jobs[k].id)
    ensures var r := SubmitBooking(act, id, values, variable, drivers, jobs, now, isDate);
      && |r| == 2 && r[1].SetJob?
      && var next := ApplySet(jobs, r[1].jobReq);
      && !next[k].data.paid && next[k].data.jobStat == 0 && CopiesForm(next[k].data, values)
      && (forall i :: 0 <= i < |jobs| && jobs[i].id != jobs[k].id ==> next[i] == jobs[i])
  {
  }

  /** The submit puts the chosen driver to work: in the next driver snapshot
      that driver is active and on work with its profile fields kept, and
      every other driver is unchanged. */
  lemma SubmitPutsDriverToWork(act: Option<string>, id: Option<string>, values: JobForm, variable: seq<Rates>,
                               drivers: seq<DriverRow>, jobs: seq<JobRow>, now: string, isDate: string -> bool)
    requires MissingJobFields(values, isDate) == {}
    requires |variable| > 0 && HasId(drivers, values.driver)
    ensures var r := SubmitBooking(act, id, values, variable, drivers, jobs, now, isDate);
      && |r| >= 1 && r[0].SetDriver?
      && var next := ApplySet(drivers, r[0].driverReq);
      && (forall i :: 0 <= i < |drivers| && drivers[i].id == values.driver ==>
            next[i].data.onWork && next[i].data.status == Active)
      && (forall i :: 0 <= i < |drivers| && drivers[i].id != values.driver ==> next[i] == drivers[i])
  {
  }
}

=== FILE: add_edit_users.dfy ===
/** The user form: its required fields, the edit-mode lookup with blank
    defaults, and the writes a submit issues. */
module Users {
  import opened Optional
  import opened Records

  /** The form values. `avatarUrl` may be absent from a stored user. */
  datatype UserForm = UserForm(name: string, email: string, avatarUrl: Option<string>, role: string, password: string)

  /** A user document. */
  datatype UserDoc = UserDoc(name: string, email: string, avatarUrl: Option<string>, role: string, password: string, status: Status)

  type UserRow = Row<UserDoc>

  /** The fields the validation schema marks as required. */
  datatype UserField = NameField | EmailField | RoleField | PasswordField

  /** The required fields the form leaves unusable: an empty text, or an
      e-mail address `isEmail` rejects. `avatarUrl` is not checked. The
      address syntax is the parameter `isEmail`. */
  function MissingUserFields(f: UserForm, isEmail: string -> bool): (r: set<UserField>)
    ensures r == {} <==> f.name != "" && f.email != "" && isEmail(f.email) && f.role != "" && f.password != ""
  {
    (if f.name == "" then {NameField} else {}) +
    (if f.email == "" || !isEmail(f.email) then {EmailField} else {}) +
    (if f.role == "" then {RoleField} else {}) +
    (if f.password == "" then {PasswordField} else {})
  }

  /** The avatar never affects validation, and an empty form misses every
      required field. */
  lemma AvatarIsOptional(f: UserForm, isEmail: string -> bool, avatarUrl: Option<string>)
    ensures MissingUserFields(f.(avatarUrl := avatarUrl), isEmail) == MissingUserFields(f, isEmail)
    ensures MissingUserFields(BlankUser, isEmail) == {NameField, EmailField, RoleField, PasswordField}
  {
  }

  /** The blank form of the add mode. */
  const BlankUser: UserForm := UserForm("", "", Some(""), "", "")

  /** The form values a stored user opens with in edit mode. */
  function FormOfUser(u: UserDoc): UserForm {
    UserForm(u.name, u.email, u.avatarUrl, u.role, u.password)
  }

  /** `filteredUsers[0] || { ...blank }`: the user whose id is the query id,
      or the blank form when there is none. */
  function InitialUserValues(users: seq<UserRow>, id: Option<string>): (r: UserForm)
    ensures (forall i :: 0 <= i < |users| ==> id != Some(users[i].id)) ==> r == BlankUser
    ensures (exists i :: 0 <= i < |users| && id == Some(users[i].id)) ==>
      exists i :: 0 <= i < |users| && id == Some(users[i].id) && r == FormOfUser(users[i].data)
  {
    var found := WithId(users, id);
    if |found| == 0 then BlankUser else FormOfUser(found[0].data)
  }

  /** `values?.avatarUrl || 'test'`: a missing or empty avatar becomes
      "test", any other is kept. */
  function AvatarOrDefault(avatarUrl: Option<string>): (r: string)
    ensures r != ""
    ensures avatarUrl.Some? && avatarUrl.value != "" ==> r == avatarUrl.value
    ensures avatarUrl == None || avatarUrl == Some("") ==> r == "test"
  {
    if avatarUrl.Some? && avatarUrl.value != "" then avatarUrl.value else "test"
  }

  /** The user carries the form's name, e-mail, role and password and is
      active. */
  predicate ActiveCopy(u: UserDoc, f: UserForm) {
    u.name == f.name && u.email == f.email && u.role == f.role && u.password == f.password && u.status == Active
  }

  /** The document the edit branch writes. */
  function EditedUser(values: UserForm): (u: UserDoc)
    ensures ActiveCopy(u, values)
    ensures u.avatarUrl == Some(AvatarOrDefault(values.avatarUrl))
  {
    UserDoc(values.name, values.email, Some(AvatarOrDefault(values.avatarUrl)), values.role, values.password, Active)
  }

  /** Saving the edit form again without changes writes the same user: the
      default avatar is only filled in once. */
  lemma EditIsIdempotent(values: UserForm)
    ensures EditedUser(FormOfUser(EditedUser(values))) == EditedUser(values)
  {
  }

  /** The writes a submit issues. */
  datatype UserWrite =
    | CreateAccount(email: string, password: string)
    | AddUser(user: UserDoc)
    | SetUser(req: SetRequest<UserDoc>)

  /** `handleSubmit` on validated values. "Add" creates the sign-in account
      and adds the user as given, unless the form has no avatar: the add
      would then carry an `undefined` field, which the store refuses, so only
      the account is created; any other `act` overwrites the user found
      by the edit lookup, and stops before any write when it finds none. */
  function SubmitUser(act: Option<string>, id: Option<string>, values: UserForm, users: seq<UserRow>, isEmail: string -> bool): (r: seq<UserWrite>)
    requires MissingUserFields(values, isEmail) == {}
    ensures act == Some("Add") ==>
      && 1 <= |r| <= 2 && r[0] == CreateAccount(values.email, values.password)
      && (|r| == 2 <==> values.avatarUrl.Some?)
      && (|r| == 2 ==> r[1].AddUser? && ActiveCopy(r[1].user, values) && r[1].user.avatarUrl == values.avatarUrl)
    ensures act != Some("Add") ==>
      && (|r| == 1 <==> exists i :: 0 <= i < |users| && id == Some(users[i].id))
      && (|r| != 1 ==> r == [])
    ensures act != Some("Add") && |r| == 1 ==>
      && r[0].SetUser? && id == Some(r[0].req.docId)
      && ActiveCopy(r[0].req.doc, values) && r[0].req.doc.avatarUrl == Some(AvatarOrDefault(values.avatarUrl))
  {
    if act == Some("Add") then
      if values.avatarUrl.None? then [CreateAccount(values.email, values.password)]
      else
        [CreateAccount(values.email, values.password),
         AddUser(UserDoc(values.name, values.email, values.avatarUrl, values.role, values.password, Active))]
    else
      var filteredUsers := WithId(users, id);
      if |filteredUsers| == 0 then []
      else [SetUser(SetRequest(filteredUsers[0].id, EditedUser(values)))]
  }

  /** Whatever status a user had, saving it from the edit form makes it
      active again in the next snapshot; every other user is unchanged. */
  lemma EditReactivates(act: Option<string>, id: Option<string>, values: UserForm, users: seq<UserRow>,
                        isEmail: string -> bool, k: nat)
    requires MissingUserFields(values, isEmail) == {}
    requires act != Some("Add")
    requires k < |users| && id == Some(users[k].id)
    ensures var r := SubmitUser(act, id, values, users, isEmail);
      && |r| == 1 && r[0].SetUser?
      && var next := ApplySet(users, r[0].req);
      && next[k].data.status == Active && next[k].data.avatarUrl != Some("")
      && (forall i :: 0 <= i < |users| && users[i].id != users[k].id ==> next[i] == users[i])
  {
  }
}

=== FILE: client_page.dfy ===
/** The Client list page: the pipeline instantiated with the client columns,
    searched on `name`, restricted to `active` clients, and the soft delete. */
module ClientPage {
  import opened Keys
  import opened Text
  import opened Sequences
  import opened Table
  import opened Records
  import opened ListPipeline

  /** A client document. */
  datatype ClientDoc = ClientDoc(
    name: string,
    email: string,
    phone: string,
    clientSpec: string,
    coordinator: string,
    fundsQuarantine: real,
    address: string,
    ndisNumber: string,
    dobNumber: string,
    planManagementDetail: real,
    status: Status)

  type ClientRow = Row<ClientDoc>

  /** The sortable columns of the client table. */
  datatype ClientColumn =
    | Name | NdisNumber | Email | Phone | DobNumber | ClientSpec
    | Coordinator | FundsQuarantine | Address | PlanManagementDetail | StatusColumn

  /** `row[orderBy]`: the cell of a client in a column. */
  function Cell(c: ClientDoc, column: ClientColumn): Key {
    match column
    case Name => Text(c.name)
    case NdisNumber => Text(c.ndisNumber)
    case Email => Text(c.email)
    case Phone => Text(c.phone)
    case DobNumber => Text(c.dobNumber)
    case ClientSpec => Text(c.clientSpec)
    case Coordinator => Text(c.coordinator)
    case FundsQuarantine => Number(c.fundsQuarantine)
    case Address => Text(c.address)
    case PlanManagementDetail => Number(c.planManagementDetail)
    case StatusColumn => Text(c.status.Name())
  }

  function SortKey(column: ClientColumn): ClientRow -> Key {
    (row: ClientRow) => Cell(row.data, column)
  }

  /** The search box looks at the client's name. */
  function SearchField(row: ClientRow): string {
    row.data.name
  }

  function IsActive(row: ClientRow): bool {
    row.data.status == Active
  }

  /** The page opens on the first page, ascending by name, 25 rows a page. */
  const Initial: TableState<ClientColumn> := InitialState(Name, 25)

  /** The rendered client table: only `active` clients are listed. */
  function Render(clients: seq<ClientRow>, s: TableState<ClientColumn>): (v: PageView<ClientRow>)
    ensures |v.rows| <= s.rowsPerPage && v.count == |clients|
    ensures s.page == 0 ==> v.emptyRows == 0
  {
    RenderPage(clients, s, SortKey, SearchField, IsActive)
  }

  /** Every listed client is an active client of the snapshot; "not found"
      is raised exactly when the snapshot is empty or the query matches no
      client name, even when it matches only clients that are not active. */
  lemma RenderShowsActive(clients: seq<ClientRow>, s: TableState<ClientColumn>)
    ensures var v := Render(clients, s);
      && (forall i :: 0 <= i < |v.rows| ==> v.rows[i] in clients && v.rows[i].data.status == Active)
      && (v.notFound <==> |clients| == 0 || (|s.filterName| > 0 && forall i :: 0 <= i < |clients| ==> !Matches(clients[i].data.name, s.filterName)))
  {
    RenderPageRows(clients, s, SortKey, SearchField, IsActive);
    RenderPageNotFound(clients, s, SortKey, SearchField, IsActive);
  }

  /** Every active client that passes the page's projection and whose search field
      contains the query (every one, with no query) is listed on some page. */
  lemma RenderListsEveryActive(clients: seq<ClientRow>, s: TableState<ClientColumn>, x: ClientRow)
    requires s.rowsPerPage > 0 && x in clients && x.data.status == Active
    requires |s.filterName| == 0 || Matches(x.data.name, s.filterName)
    ensures exists page: nat :: x in Render(clients, s.(page := page)).rows
  {
    RenderPageComplete(clients, s, SortKey, SearchField, IsActive, x);
  }

  /** With no query the listed rows follow the comparator of the chosen
      column and direction; with a query they keep their snapshot order. */
  lemma RenderOrder(clients: seq<ClientRow>, s: TableState<ClientColumn>)
    ensures var rows := Render(clients, s).rows;
      && (s.filterName == "" ==>
            forall i, j :: 0 <= i < j < |rows| ==> Comparator(s.order, Cell(rows[i].data, s.orderBy), Cell(rows[j].data, s.orderBy)) <= 0)
      && (|s.filterName| > 0 ==> exists idx :: PicksOut(idx, rows, clients))
  {
    var rows := Render(clients, s).rows;
    if s.filterName == "" {
      RenderPageSorted(clients, s, SortKey, SearchField, IsActive);
      assert forall i :: 0 <= i < |rows| ==> SortKey(s.orderBy)(rows[i]) == Cell(rows[i].data, s.orderBy);
    } else {
      var found := ApplySortFilter(clients, s.order, SortKey(s.orderBy), SearchField, s.filterName);
      RenderPageInSnapshotOrder(clients, s, SortKey, SearchField, IsActive);
      var idx := Compose(KeptFrom(clients, SearchHit(SearchField, s.filterName), 0), Window(KeptFrom(found, IsActive, 0), s.page, s.rowsPerPage));
      assert PicksOut(idx, rows, clients);
    }
  }

  /** `deleteClient`: overwrite the client with id `uid` by a copy of its ten
      fields with `status` set to `non-active`. The page only deletes a row
      it displayed, so `uid` is in the snapshot. */
  function DeleteClient(clients: seq<ClientRow>, uid: string): (req: SetRequest<ClientDoc>)
    requires HasId(clients, uid)
    ensures req.docId == uid
    ensures req.doc.status == NonActive
    ensures exists i :: 0 <= i < |clients| && clients[i].id == uid && req.doc == clients[i].data.(status := NonActive)
  {
    var c := FindById(clients, uid).data;
    SetRequest(uid, ClientDoc(
      name := c.name,
      email := c.email,
      phone := c.phone,
      clientSpec := c.clientSpec,
      coordinator := c.coordinator,
      fundsQuarantine := c.fundsQuarantine,
      address := c.address,
      ndisNumber := c.ndisNumber,
      dobNumber := c.dobNumber,
      planManagementDetail := c.planManagementDetail,
      status := NonActive))
  }

  /** Once the soft delete reaches the next snapshot, the deleted client is
      no longer listed, whatever the table state; every other row of the
      snapshot is untouched. */
  lemma DeletedClientHidden(clients: seq<ClientRow>, uid: string, s: TableState<ClientColumn>)
    requires HasId(clients, uid)
    ensures var next := ApplySet(clients, DeleteClient(clients, uid));
      && (forall i :: 0 <= i < |clients| && clients[i].id != uid ==> next[i] == clients[i])
      && (forall i :: 0 <= i < |Render(next, s).rows| ==> Render(next, s).rows[i].id != uid)
  {
    var next := ApplySet(clients, DeleteClient(clients, uid));
    var rows := Render(next, s).rows;
    RenderShowsActive(next, s);
    forall i | 0 <= i < |rows|
      ensures rows[i].id != uid
    {
      var k :| 0 <= k < |next| && next[k] == rows[i];
    }
  }

  /** A search that matches no client shows no rows and raises "not found". */
  lemma SearchWithoutMatch(clients: seq<ClientRow>, s: TableState<ClientColumn>)
    requires |s.filterName| > 0
    requires forall i :: 0 <= i < |clients| ==> !Matches(clients[i].data.name, s.filterName)
    ensures Render(clients, s).rows == [] && Render(clients, s).notFound
  {
    RenderPageNotFound(clients, s, SortKey, SearchField, IsActive);
  }
}

=== FILE: driver_page.dfy ===
/** The Driver list page: the pipeline instantiated with the driver columns,
    searched on `name`, restricted to `active` drivers; the soft delete, the
    driver-record rewrite it shares with the booking form, and select-all. */
module DriverPage {
  import opened Optional
  import opened Keys
  import opened Text
  import opened Sequences
  import opened Table
  import opened Records
  import opened ListPipeline
  import opened Selection

  /** A driver document. `dobNumber` is written by the driver form, which is
      not part of this model, and is dropped by every rewrite below. */
  datatype DriverDoc = DriverDoc(
    name: string,
    password: string,
    email: string,
    phone: string,
    dobNumber: Option<string>,
    licenseNumber: string,
    regoNumber: string,
    employeeType: real,
    onWork: bool,
    status: Status)

  type DriverRow = Row<DriverDoc>

  /** The sortable columns of the driver table. */
  datatype DriverColumn =
    | Name | Email | DobNumber | Phone | RegoNumber | LicenseNumber | EmployeeType | StatusColumn

  /** `row[orderBy]`; a driver without a date of birth sorts as the empty
      string. */
  function Cell(d: DriverDoc, column: DriverColumn): Key {
    match column
    case Name => Text(d.name)
    case Email => Text(d.email)
    case DobNumber => Text(d.dobNumber.GetOr(""))
    case Phone => Text(d.phone)
    case RegoNumber => Text(d.regoNumber)
    case LicenseNumber => Text(d.licenseNumber)
    case EmployeeType => Number(d.employeeType)
    case StatusColumn => Text(d.status.Name())
  }

  function SortKey(column: DriverColumn): DriverRow -> Key {
    (row: DriverRow) => Cell(row.data, column)
  }

  /** The search box and the selection both look at the driver's name. */
  function NameOf(row: DriverRow): string {
    row.data.name
  }

  function IsActive(row: DriverRow): bool {
    row.data.status == Active
  }

  /** The page opens on the first page, ascending by name, 25 rows a page. */
  const Initial: TableState<DriverColumn> := InitialState(Name, 25)

  /** The rendered driver table: only `active` drivers are listed. */
  function Render(drivers: seq<DriverRow>, s: TableState<DriverColumn>): (v: PageView<DriverRow>)
    ensures |v.rows| <= s.rowsPerPage && v.count == |drivers|
    ensures s.page == 0 ==> v.emptyRows == 0
  {
    RenderPage(drivers, s, SortKey, NameOf, IsActive)
  }

  /** Every listed driver is an active driver of the snapshot; "not found"
      is raised exactly when the snapshot is empty or the query matches no
      driver name, checked before the status projection. */
  lemma RenderShowsActive(drivers: seq<DriverRow>, s: TableState<DriverColumn>)
    ensures var v := Render(drivers, s);
      && (forall i :: 0 <= i < |v.rows| ==> v.rows[i] in drivers && v.rows[i].data.status == Active)
      && (v.notFound <==> |drivers| == 0 || (|s.filterName| > 0 && forall i :: 0 <= i < |drivers| ==> !Matches(drivers[i].data.name, s.filterName)))
  {
    RenderPageRows(drivers, s, SortKey, NameOf, IsActive);
    RenderPageNotFound(drivers, s, SortKey, NameOf, IsActive);
  }

  /** Every active driver that passes the page's projection and whose search field
      contains the query (every one, with no query) is listed on some page. */
  lemma RenderListsEveryActive(drivers: seq<DriverRow>, s: TableState<DriverColumn>, x: DriverRow)
    requires s.rowsPerPage > 0 && x in drivers && x.data.status == Active
    requires |s.filterName| == 0 || Matches(x.data.name, s.filterName)
    ensures exists page: nat :: x in Render(drivers, s.(page := page)).rows
  {
    RenderPageComplete(drivers, s, SortKey, NameOf, IsActive, x);
  }

  /** With no query the listed rows follow the comparator of the chosen
      column and direction; with a query they keep their snapshot order. */
  lemma RenderOrder(drivers: seq<DriverRow>, s: TableState<DriverColumn>)
    ensures var rows := Render(drivers, s).rows;
      && (s.filterName == "" ==>
            forall i, j :: 0 <= i < j < |rows| ==> Comparator(s.order, Cell(rows[i].data, s.orderBy), Cell(rows[j].data, s.orderBy)) <= 0)
      && (|s.filterName| > 0 ==> exists idx :: PicksOut(idx, rows, drivers))
  {
    var rows := Render(drivers, s).rows;
    if s.filterName == "" {
      RenderPageSorted(drivers, s, SortKey, NameOf, IsActive);
      assert forall i :: 0 <= i < |rows| ==> SortKey(s.orderBy)(rows[i]) == Cell(rows[i].data, s.orderBy);
    } else {
      var found := ApplySortFilter(drivers, s.order, SortKey(s.orderBy), NameOf, s.filterName);
      RenderPageInSnapshotOrder(drivers, s, SortKey, NameOf, IsActive);
      var idx := Compose(KeptFrom(drivers, SearchHit(NameOf, s.filterName), 0), Window(KeptFrom(found, IsActive, 0), s.page, s.rowsPerPage));
      assert PicksOut(idx, rows, drivers);
    }
  }

  /** The full overwrite `set({ name, password, email, phone, licenseNumber,
      regoNumber, employeeType, onWork, status })` built from a driver: the
      seven listed fields are copied, `onWork` and `status` are given, and
      the date of birth, not being listed, is gone. */
  function Rewrite(d: DriverDoc, onWork: bool, status: Status): (r: DriverDoc)
    ensures r == d.(dobNumber := None, onWork := onWork, status := status)
  {
    DriverDoc(
      name := d.name,
      password := d.password,
      email := d.email,
      phone := d.phone,
      dobNumber := None,
      licenseNumber := d.licenseNumber,
      regoNumber := d.regoNumber,
      employeeType := d.employeeType,
      onWork := onWork,
      status := status)
  }

  /** Rewriting a rewritten driver keeps only the last flags: the profile
      fields survive any number of rewrites. */
  lemma RewriteTwice(d: DriverDoc, w1: bool, s1: Status, w2: bool, s2: Status)
    ensures Rewrite(Rewrite(d, w1, s1), w2, s2) == Rewrite(d, w2, s2)
    ensures Rewrite(d, w1, s1).onWork == w1 && Rewrite(d, w1, s1).status == s1
  {
  }

  /** `deleteDriver`: overwrite the driver with id `uid` by its rewrite with
      `onWork` false and `status` `non-active`. The page only deletes a row
      it displayed, so `uid` is in the snapshot. */
  function DeleteDriver(drivers: seq<DriverRow>, uid: string): (req: SetRequest<DriverDoc>)
    requires HasId(drivers, uid)
    ensures req.docId == uid
    ensures !req.doc.onWork && req.doc.status == NonActive && req.doc.dobNumber == None
    ensures exists i :: (0 <= i < |drivers| && drivers[i].id == uid &&
      req.doc == drivers[i].data.(dobNumber := None, onWork := false, status := NonActive))
  {
    SetRequest(uid, Rewrite(FindById(drivers, uid).data, false, NonActive))
  }

  /** Once the soft delete reaches the next snapshot, the deleted driver is
      no longer listed, whatever the table state; every other row of the
      snapshot is untouched. */
  lemma DeletedDriverHidden(drivers: seq<DriverRow>, uid: string, s: TableState<DriverColumn>)
    requires HasId(drivers, uid)
    ensures var next := ApplySet(drivers, DeleteDriver(drivers, uid));
      && (forall i :: 0 <= i < |drivers| && drivers[i].id != uid ==> next[i] == drivers[i])
      && (forall i :: 0 <= i < |Render(next, s).rows| ==> Render(next, s).rows[i].id != uid)
  {
    var next := ApplySet(drivers, DeleteDriver(drivers, uid));
    var rows := Render(next, s).rows;
    RenderShowsActive(next, s);
    forall i | 0 <= i < |rows|
      ensures rows[i].id != uid
    {
      var k :| 0 <= k < |next| && next[k] == rows[i];
    }
  }

  /** `handleSelectAllClick` on the driver page selects the names. */
  function SelectAllDrivers(drivers: seq<DriverRow>, checked: bool): (r: seq<string>)
    ensures checked ==> |r| == |drivers| && forall i :: 0 <= i < |drivers| ==> r[i] == drivers[i].data.name
    ensures !checked ==> r == []
  {
    SelectAll(drivers, checked, NameOf)
  }

  /** After select-all every listed driver's row is marked selected: a row
      is selected when `selected.indexOf(name) !== -1`. */
  lemma SelectAllMarksEveryRow(drivers: seq<DriverRow>, s: TableState<DriverColumn>)
    ensures var selected := SelectAllDrivers(drivers, true);
      var rows := Render(drivers, s).rows;
      forall i :: 0 <= i < |rows| ==> IndexOf(selected, rows[i].data.name) != -1
  {
    var selected := SelectAllDrivers(drivers, true);
    var rows := Render(drivers, s).rows;
    RenderShowsActive(drivers, s);
    forall i | 0 <= i < |rows|
      ensures IndexOf(selected, rows[i].data.name) != -1
    {
      var k :| 0 <= k < |drivers| && drivers[k] == rows[i];
      assert selected[k] == rows[i].data.name;
    }
  }
}

=== FILE: keys.dfy ===
/** Sort keys and the three-way comparator shared by the Client, Driver and
    Ndis list pages (`descendingComparator` and `getComparator`). */
module Keys {

  /** A sortable cell: the document store is schemaless, so a column value is
      either text or a number. */
  datatype Key = Text(s: string) | Number(n: real)

  /** The sort direction of a table. */
  datatype Order = Asc | Desc

  /** The UTF-16 code units of one character: itself below U+10000, and
      otherwise its high and low surrogate. */
  function CodeUnits(c: char): (r: seq<int>)
    ensures 1 <= |r| <= 2
    ensures |r| == 1 <==> c as int < 0x1_0000
    ensures forall i :: 0 <= i < |r| ==> 0 <= r[i] < 0x1_0000
    ensures c as int < 0x1_0000 ==> r == [c as int]
    ensures c as int >= 0x1_0000 ==>
      && 0xD800 <= r[0] < 0xDC00 <= r[1] < 0xE000
      && (r[0] - 0xD800) * 0x400 + (r[1] - 0xDC00) + 0x1_0000 == c as int
  {
    var v := c as int;
    if v < 0x1_0000 then [v]
    else [0xD800 + (v - 0x1_0000) / 0x400, 0xDC00 + (v - 0x1_0000) % 0x400]
  }

  /** A string as JavaScript stores it: its sequence of UTF-16 code units. */
  function Utf16(s: string): (r: seq<int>)
    ensures |s| <= |r| <= 2 * |s|
  {
    if |s| == 0 then [] else CodeUnits(s[0]) + Utf16(s[1..])
  }

  /** The first code unit tells the two kinds of character apart: it is a
      high surrogate exactly when the character lies above U+FFFF. */
  lemma CodeUnitsLead(c: char)
    ensures 0xD800 <= CodeUnits(c)[0] < 0xDC00 <==> c as int >= 0x1_0000
  {
  }

  /** Two characters with the same code units are the same character. */
  lemma CodeUnitsInjective(c: char, d: char)
    requires CodeUnits(c) == CodeUnits(d)
    ensures c == d
  {
    CodeUnitsLead(c);
    CodeUnitsLead(d);
    var v, w := c as int, d as int;
    if v >= 0x1_0000 {
      assert (v - 0x1_0000) / 0x400 == (w - 0x1_0000) / 0x400;
      assert (v - 0x1_0000) % 0x400 == (w - 0x1_0000) % 0x400;
      assert v - 0x1_0000 == 0x400 * ((v - 0x1_0000) / 0x400) + (v - 0x1_0000) % 0x400;
      assert w - 0x1_0000 == 0x400 * ((w - 0x1_0000) / 0x400) + (w - 0x1_0000) % 0x400;
    }
  }

  /** Distinct strings have distinct code-unit sequences. */
  lemma {:induction false} Utf16Injective(a: string, b: string)
    requires Utf16(a) == Utf16(b)
    ensures a == b
    decreases |a|
  {
    if |a| > 0 {
      var ca, cb := CodeUnits(a[0]), CodeUnits(b[0]);
      assert Utf16(a) == ca + Utf16(a[1..]);
      assert Utf16(b) == cb + Utf16(b[1..]);
      assert ca[0] == Utf16(a)[0] == cb[0];
      CodeUnitsLead(a[0]);
      CodeUnitsLead(b[0]);
      assert |ca| == |cb|;
      assert ca == Utf16(a)[..|ca|] == cb;
      CodeUnitsInjective(a[0], b[0]);
      assert Utf16(a[1..]) == Utf16(a)[|ca|..] == Utf16(b[1..]);
      Utf16Injective(a[1..], b[1..]);
      assert a == [a[0]] + a[1..] && b == [b[0]] + b[1..];
    }
  }

  /** Lexicographic order on code-unit sequences, a proper prefix sorting
      first. */
  predicate UnitsLess(a: seq<int>, b: seq<int>)
    decreases |a|
  {
    if |a| == 0 then |b| > 0
    else if |b| == 0 then false
    else if a[0] != b[0] then a[0] < b[0]
    else UnitsLess(a[1..], b[1..])
  }

  /** JavaScript's `<` on two strings: lexicographic by UTF-16 code unit. */
  predicate StrLess(a: string, b: string) {
    UnitsLess(Utf16(a), Utf16(b))
  }

  /** A character above U+FFFF sorts by its high surrogate, so before
      U+FFFD although its code point is larger. */
  lemma StrLessByCodeUnit()
    ensures StrLess([0x1_F600 as char], [0xFFFD as char])
    ensures !StrLess([0xFFFD as char], [0x1_F600 as char])
  {
    assert Utf16([0x1_F600 as char]) == [0xD83D, 0xDE00];
    assert Utf16([0xFFFD as char]) == [0xFFFD];
  }

  /** The order `<` used on two cells. Numbers compare numerically and text
      lexicographically; a number is placed before any text. */
  predicate Less(a: Key, b: Key) {
    match (a, b)
    case (Number(x), Number(y)) => x < y
    case (Text(x), Text(y)) => StrLess(x, y)
    case (Number(_), Text(_)) => true
    case (Text(_), Number(_)) => false
  }

  lemma {:induction false} UnitsLessIrreflexive(a: seq<int>)
    ensures !UnitsLess(a, a)
    decreases |a|
  {
    if |a| > 0 {
      UnitsLessIrreflexive(a[1..]);
    }
  }

  lemma {:induction false} UnitsLessTransitive(a: seq<int>, b: seq<int>, c: seq<int>)
    requires UnitsLess(a, b) && UnitsLess(b, c)
    ensures UnitsLess(a, c)
    decreases |a|
  {
    if |a| > 0 {
      assert |b| > 0 && |c| > 0;
      if a[0] == b[0] && b[0] == c[0] {
        UnitsLessTransitive(a[1..], b[1..], c[1..]);
      }
    }
  }

  lemma {:induction false} UnitsLessTotal(a: seq<int>, b: seq<int>)
    ensures a == b || UnitsLess(a, b) || UnitsLess(b, a)
    decreases |a|
  {
    if |a| > 0 && |b| > 0 && a[0] == b[0] {
      UnitsLessTotal(a[1..], b[1..]);
      if a[1..] == b[1..] {
        assert a == [a[0]] + a[1..] && b == [b[0]] + b[1..];
      }
    }
  }

  lemma StrLessIrreflexive(a: string)
    ensures !StrLess(a, a)
  {
    UnitsLessIrreflexive(Utf16(a));
  }

  lemma StrLessTransitive(a: string, b: string, c: string)
    requires StrLess(a, b) && StrLess(b, c)
    ensures StrLess(a, c)
  {
    UnitsLessTransitive(Utf16(a), Utf16(b), Utf16(c));
  }

  /** Of two distinct strings one is less: the code-unit encoding loses no
      information. */
  lemma StrLessTotal(a: string, b: string)
    ensures a == b || StrLess(a, b) || StrLess(b, a)
  {
    UnitsLessTotal(Utf16(a), Utf16(b));
    if Utf16(a) == Utf16(b) {
      Utf16Injective(a, b);
    }
  }

  /** `Less` is a strict total order on cells: irreflexive, transitive and
      total, hence also asymmetric. */
  lemma LessStrictTotalOrder(a: Key, b: Key, c: Key)
    ensures !Less(a, a)
    ensures Less(a, b) && Less(b, c) ==> Less(a, c)
    ensures a == b || Less(a, b) || Less(b, a)
    ensures Less(a, b) ==> !Less(b, a)
  {
    if a.Text? {
      StrLessIrreflexive(a.s);
    }
    if a.Text? && b.Text? {
      StrLessTotal(a.s, b.s);
      if StrLess(a.s, b.s) && StrLess(b.s, a.s) {
        StrLessTransitive(a.s, b.s, a.s);
      }
    }
    if a.Text? && b.Text? && c.Text? && StrLess(a.s, b.s) && StrLess(b.s, c.s) {
      StrLessTransitive(a.s, b.s, c.s);
    }
  }

  /** `descendingComparator(a, b, orderBy)` on the two rows' `orderBy` cells. */
  function DescendingComparator(a: Key, b: Key): (r: int)
    ensures r == -1 <==> Less(b, a)
    ensures r == 1 <==> Less(a, b)
    ensures r == 0 <==> a == b
  {
    LessStrictTotalOrder(a, b, a);
    if Less(b, a) then -1
    else if Less(a, b) then 1
    else 0
  }

  /** Whether a cell `a` must be displayed before a cell `b` in direction
      `order`. */
  predicate Before(order: Order, a: Key, b: Key) {
    if order == Asc then Less(a, b) else Less(b, a)
  }

  /** The comparator `getComparator(order, orderBy)` returns, applied to the
      rows' `orderBy` cells: negative when `a` goes first, zero on a tie,
      positive when `b` goes first. */
  function Comparator(order: Order, a: Key, b: Key): (r: int)
    ensures r < 0 <==> Before(order, a, b)
    ensures r == 0 <==> a == b
    ensures r > 0 <==> Before(order, b, a)
    ensures -1 <= r <= 1
  {
    if order == Desc then DescendingComparator(a, b) else -DescendingComparator(a, b)
  }

  /** The descending comparator is antisymmetric, and the ascending one is
      its exact negation. */
  lemma ComparatorNegation(a: Key, b: Key)
    ensures DescendingComparator(a, b) == -DescendingComparator(b, a)
    ensures Comparator(Asc, a, b) == -Comparator(Desc, a, b)
    ensures Comparator(Asc, a, b) == Comparator(Desc, b, a)
  {
    LessStrictTotalOrder(a, b, a);
  }

  /** The comparator is a consistent three-way comparison: ties are an
      equivalence, and "goes first or ties" is transitive. */
  lemma ComparatorTransitive(order: Order, a: Key, b: Key, c: Key)
    ensures Comparator(order, a, b) == -Comparator(order, b, a)
    ensures Comparator(order, a, b) <= 0 && Comparator(order, b, c) <= 0 ==> Comparator(order, a, c) <= 0
    ensures Comparator(order, a, b) < 0 && Comparator(order, b, c) <= 0 ==> Comparator(order, a, c) < 0
    ensures Comparator(order, a, b) <= 0 && Comparator(order, b, c) < 0 ==> Comparator(order, a, c) < 0
  {
    LessStrictTotalOrder(a, b, c);
    LessStrictTotalOrder(c, b, a);
    LessStrictTotalOrder(b, a, c);
    LessStrictTotalOrder(a, c, b);
  }
}

=== FILE: list_pipeline.dfy ===
/** The list pipeline the Client, Driver and Ndis pages share, written once
    for any row type: `applySortFilter`, the page window and the `emptyRows`
    filler count. Each page supplies the sort key of the chosen column and
    the field its search box looks at. */
module ListPipeline {
  import opened Keys
  import opened Text
  import opened Sequences
  import opened StableSort
  import opened Table

  /** The search callback: the row's designated field contains the query,
      ignoring letter case. */
  function SearchHit<T>(field: T -> string, query: string): T -> bool {
    (x: T) => Matches(field(x), query)
  }

  /** The filter branch of `applySortFilter`: the rows whose designated
      field contains the query, in their original order. */
  function Search<T>(xs: seq<T>, field: T -> string, query: string): (r: seq<T>)
    ensures forall i :: 0 <= i < |r| ==> r[i] in xs
  {
    Filter(xs, SearchHit(field, query))
  }

  /** Every row the search finds contains the query. */
  lemma SearchMatches<T>(xs: seq<T>, field: T -> string, query: string)
    ensures var r := Search(xs, field, query);
      forall i :: 0 <= i < |r| ==> Matches(field(r[i]), query)
  {
  }

  /** The search finds nothing exactly when no row matches. */
  lemma SearchEmpty<T>(xs: seq<T>, field: T -> string, query: string)
    ensures |Search(xs, field, query)| == 0 <==> forall i :: 0 <= i < |xs| ==> !Matches(field(xs[i]), query)
  {
    FilterFirst(xs, SearchHit(field, query));
  }

  /** `applySortFilter(array, getComparator(order, orderBy), query)`. The
      source sorts first and then, for a non-empty query, discards the sort
      and returns the matching rows of the ORIGINAL array; for an empty query
      it returns the sorted rows. The ordering facts of each branch are
      `SortBranchOrder` and `SearchBranchOrder`. */
  function ApplySortFilter<T>(xs: seq<T>, order: Order, key: T -> Key, field: T -> string, query: string): (r: seq<T>)
    ensures forall i :: 0 <= i < |r| ==> r[i] in xs
  {
    if |query| > 0 then Search(xs, field, query)
    else
      var sorted := SortStable(xs, order, key);
      assert forall i :: 0 <= i < |sorted| ==> sorted[i] in multiset(xs);
      sorted
  }

  /** With an empty query the result is a rearrangement of the input. */
  lemma ApplySortFilterPermutes<T>(xs: seq<T>, order: Order, key: T -> Key, field: T -> string)
    ensures multiset(ApplySortFilter(xs, order, key, field, "")) == multiset(xs)
  {
  }

  /** With a non-empty query every row of the result contains it. */
  lemma ApplySortFilterMatches<T>(xs: seq<T>, order: Order, key: T -> Key, field: T -> string, query: string)
    requires |query| > 0
    ensures var r := ApplySortFilter(xs, order, key, field, query);
      forall i :: 0 <= i < |r| ==> Matches(field(r[i]), query)
  {
    SearchMatches(xs, field, query);
  }

  /** `applySortFilter` returns nothing exactly when the list is empty or
      a non-empty query matches no row. */
  lemma ApplySortFilterEmpty<T>(xs: seq<T>, order: Order, key: T -> Key, field: T -> string, query: string)
    ensures |ApplySortFilter(xs, order, key, field, query)| == 0 <==>
      |xs| == 0 || (|query| > 0 && forall i :: 0 <= i < |xs| ==> !Matches(field(xs[i]), query))
  {
    if |query| > 0 {
      SearchEmpty(xs, field, query);
    }
  }

  /** With an empty query the rows come out ordered by the comparator, each
      row `i` being row `SortedPositions[i]` of the input, and rows that
      compare equal keep their input order, in either direction. */
  lemma SortBranchOrder<T>(xs: seq<T>, order: Order, key: T -> Key, field: T -> string)
    ensures var r := ApplySortFilter(xs, order, key, field, "");
      var pos := SortedPositions(xs, order, key);
      && |r| == |xs|
      && (forall i :: 0 <= i < |r| ==> r[i] == xs[pos[i]])
      && (forall i, j :: 0 <= i < j < |r| ==> Comparator(order, key(r[i]), key(r[j])) <= 0)
      && (forall i, j :: 0 <= i < j < |r| && Comparator(order, key(r[i]), key(r[j])) == 0 ==> pos[i] < pos[j])
  {
    SortStableOrdered(xs, order, key);
  }

  /** With a non-empty query the rows come out in their input order: they
      are picked out of the input at increasing positions, and the positions
      picked are exactly those of the matching rows. No sorting happens. */
  lemma SearchBranchOrder<T>(xs: seq<T>, order: Order, key: T -> Key, field: T -> string, query: string)
    requires |query| > 0
    ensures var r := ApplySortFilter(xs, order, key, field, query);
      var picked := KeptFrom(xs, SearchHit(field, query), 0);
      && PicksOut(picked, r, xs)
      && (forall i :: i in picked <==> 0 <= i < |xs| && Matches(field(xs[i]), query))
  {
    FilterIsSubsequence(xs, SearchHit(field, query));
  }

  /** `rows.slice(page * rowsPerPage, page * rowsPerPage + rowsPerPage)`: at
      most one page of rows, consecutive rows of the list starting at the
      page's first position; a page past the end is empty. */
  function Window<T>(xs: seq<T>, page: nat, rowsPerPage: nat): (r: seq<T>)
    ensures |r| <= rowsPerPage
    ensures page * rowsPerPage >= |xs| ==> r == []
    ensures (page + 1) * rowsPerPage <= |xs| ==> |r| == rowsPerPage
    ensures page * rowsPerPage < |xs| < (page + 1) * rowsPerPage ==> |r| == |xs| - page * rowsPerPage
    ensures forall i :: 0 <= i < |r| ==> page * rowsPerPage + i < |xs| && r[i] == xs[page * rowsPerPage + i]
  {
    Slice(xs, page * rowsPerPage, page * rowsPerPage + rowsPerPage)
  }

  /** The rows a page window shows of a filtered list come from the list
      and pass the filter. */
  lemma WindowOfFilter<T>(ys: seq<T>, keep: T -> bool, page: nat, rowsPerPage: nat)
    ensures var w := Window(Filter(ys, keep), page, rowsPerPage);
      forall i :: 0 <= i < |w| ==> w[i] in ys && keep(w[i])
  {
    var f := Filter(ys, keep);
    var w := Window(f, page, rowsPerPage);
    forall i | 0 <= i < |w|
      ensures w[i] in ys && keep(w[i])
    {
      assert w[i] == f[page * rowsPerPage + i];
    }
  }

  /** Every row of a list appears on exactly one page: row `k` is entry
      `k % rowsPerPage` of page `k / rowsPerPage`. */
  lemma WindowFindsEveryRow<T>(xs: seq<T>, rowsPerPage: nat, k: nat)
    requires rowsPerPage > 0 && k < |xs|
    ensures var w := Window(xs, k / rowsPerPage, rowsPerPage);
      k % rowsPerPage < |w| && w[k % rowsPerPage] == xs[k]
  {
    var page := k / rowsPerPage;
    var offset := k % rowsPerPage;
    assert k == page * rowsPerPage + offset;
    assert (page + 1) * rowsPerPage == page * rowsPerPage + rowsPerPage;
  }

  /** `page > 0 ? Math.max(0, (1 + page) * rowsPerPage - total) : 0`: the
      number of blank filler rows, computed from the size `total` of the
      whole snapshot. */
  function EmptyRows(page: nat, rowsPerPage: nat, total: nat): (r: nat)
    ensures page == 0 ==> r == 0
    ensures page > 0 && (1 + page) * rowsPerPage <= total ==> r == 0
    ensures page > 0 && (1 + page) * rowsPerPage > total ==> r + total == (1 + page) * rowsPerPage
  {
    if page > 0 then (if (1 + page) * rowsPerPage - total > 0 then (1 + page) * rowsPerPage - total else 0)
    else 0
  }

  /** On a page after the first that is not past the end, the filler rows
      make up exactly what the window of the whole snapshot lacks. */
  lemma EmptyRowsFillPage<T>(xs: seq<T>, page: nat, rowsPerPage: nat)
    requires 0 < page && page * rowsPerPage <= |xs|
    ensures |Window(xs, page, rowsPerPage)| + EmptyRows(page, rowsPerPage, |xs|) == rowsPerPage
  {
    assert (page + 1) * rowsPerPage == page * rowsPerPage + rowsPerPage;
  }

  /** When the displayed list is shorter than the snapshot (a filter or the
      status projection removed rows), the filler count is still computed
      from the snapshot, so the page can come out short. */
  lemma EmptyRowsUndercount<T>(shown: seq<T>, total: nat, page: nat, rowsPerPage: nat)
    requires 0 < page && page * rowsPerPage <= total && |shown| <= total
    ensures |Window(shown, page, rowsPerPage)| + EmptyRows(page, rowsPerPage, total) <= rowsPerPage
  {
    assert (page + 1) * rowsPerPage == page * rowsPerPage + rowsPerPage;
  }

  /** What a list page shows for a snapshot `xs` and a table state: the
      window of rows that `keep` lets through, the "not found" flag, the
      filler rows and the pagination count. */
  datatype PageView<T> = PageView(rows: seq<T>, notFound: bool, emptyRows: nat, count: nat)

  /** The rendered table. The rows come from `applySortFilter`, then the
      page's own projection `keep`, then the window; the "not found" flag
      looks at the `applySortFilter` result BEFORE `keep`; the filler and the
      count use the whole snapshot. */
  function RenderPage<T, C>(xs: seq<T>, s: TableState<C>, key: C -> T -> Key, field: T -> string, keep: T -> bool): (v: PageView<T>)
    ensures |v.rows| <= s.rowsPerPage
    ensures v.count == |xs|
    ensures s.page == 0 ==> v.emptyRows == 0
  {
    var found := ApplySortFilter(xs, s.order, key(s.orderBy), field, s.filterName);
    PageView(Window(Filter(found, keep), s.page, s.rowsPerPage), |found| == 0,
      EmptyRows(s.page, s.rowsPerPage, |xs|), |xs|)
  }

  /** Every row shown is a row of the snapshot that passes `keep`. */
  lemma RenderPageRows<T, C>(xs: seq<T>, s: TableState<C>, key: C -> T -> Key, field: T -> string, keep: T -> bool)
    ensures var rows := RenderPage(xs, s, key, field, keep).rows;
      forall i :: 0 <= i < |rows| ==> rows[i] in xs && keep(rows[i])
  {
    var found := ApplySortFilter(xs, s.order, key(s.orderBy), field, s.filterName);
    var rows := Window(Filter(found, keep), s.page, s.rowsPerPage);
    assert RenderPage(xs, s, key, field, keep).rows == rows;
    WindowOfFilter(found, keep, s.page, s.rowsPerPage);
    WindowOfFilterKeeps(found, keep, s.page, s.rowsPerPage, (x: T) => x in xs);
    forall i | 0 <= i < |rows|
      ensures rows[i] in xs && keep(rows[i])
    {
      assert ((x: T) => x in xs)(rows[i]);
    }
  }

  /** A property every row of a list has, every row of a page window of a
      filtered view of it has too. */
  lemma WindowOfFilterKeeps<T>(ys: seq<T>, keep: T -> bool, page: nat, rowsPerPage: nat, prop: T -> bool)
    requires forall j :: 0 <= j < |ys| ==> prop(ys[j])
    ensures var w := Window(Filter(ys, keep), page, rowsPerPage);
      forall i :: 0 <= i < |w| ==> prop(w[i])
  {
    var w := Window(Filter(ys, keep), page, rowsPerPage);
    WindowOfFilter(ys, keep, page, rowsPerPage);
    forall i | 0 <= i < |w|
      ensures prop(w[i])
    {
      var j :| 0 <= j < |ys| && ys[j] == w[i];
    }
  }

  /** When the search box holds a query, every row shown contains it. */
  lemma RenderPageMatches<T, C>(xs: seq<T>, s: TableState<C>, key: C -> T -> Key, field: T -> string, keep: T -> bool)
    requires |s.filterName| > 0
    ensures var rows := RenderPage(xs, s, key, field, keep).rows;
      forall i :: 0 <= i < |rows| ==> Matches(field(rows[i]), s.filterName)
  {
    var found := ApplySortFilter(xs, s.order, key(s.orderBy), field, s.filterName);
    ApplySortFilterMatches(xs, s.order, key(s.orderBy), field, s.filterName);
    var rows := Window(Filter(found, keep), s.page, s.rowsPerPage);
    assert RenderPage(xs, s, key, field, keep).rows == rows;
    WindowOfFilterKeeps(found, keep, s.page, s.rowsPerPage, SearchHit(field, s.filterName));
    forall i | 0 <= i < |rows|
      ensures Matches(field(rows[i]), s.filterName)
    {
      assert SearchHit(field, s.filterName)(rows[i]);
    }
  }

  /** Windowing two sequences of the same length at the same page keeps one
      picked out of a third by the other. */
  lemma PicksOutWindow<T>(idx: seq<nat>, r: seq<T>, xs: seq<T>, page: nat, rowsPerPage: nat)
    requires PicksOut(idx, r, xs)
    ensures PicksOut(Window(idx, page, rowsPerPage), Window(r, page, rowsPerPage), xs)
  {
    var wi, wr := Window(idx, page, rowsPerPage), Window(r, page, rowsPerPage);
    assert |wi| == |wr|;
    forall k, l | 0 <= k < l < |wi|
      ensures wi[k] < wi[l]
    {
      assert wi[k] == idx[page * rowsPerPage + k] && wi[l] == idx[page * rowsPerPage + l];
    }
  }

  /** The rows a page lists are the page window of `kept`, what `keep`
      lets through of the `applySortFilter` result: every kept row whose
      position falls on this page is listed at its offset in the page. */
  lemma RenderPageWindow<T, C>(xs: seq<T>, s: TableState<C>, key: C -> T -> Key, field: T -> string, keep: T -> bool)
    ensures var kept := Filter(ApplySortFilter(xs, s.order, key(s.orderBy), field, s.filterName), keep);
      var rows := RenderPage(xs, s, key, field, keep).rows;
      && rows == Window(kept, s.page, s.rowsPerPage)
      && (s.rowsPerPage > 0 ==>
            forall k :: 0 <= k < |kept| && k / s.rowsPerPage == s.page ==>
              k % s.rowsPerPage < |rows| && rows[k % s.rowsPerPage] == kept[k])
  {
    var kept := Filter(ApplySortFilter(xs, s.order, key(s.orderBy), field, s.filterName), keep);
    var rows := Window(kept, s.page, s.rowsPerPage);
    assert RenderPage(xs, s, key, field, keep).rows == rows;
    if s.rowsPerPage > 0 {
      forall k | 0 <= k < |kept| && k / s.rowsPerPage == s.page
        ensures k % s.rowsPerPage < |rows| && rows[k % s.rowsPerPage] == kept[k]
      {
        WindowFindsEveryRow(kept, s.rowsPerPage, k);
      }
    }
  }

  /** Exactly what a page lists: the page window of `kept` (above), picked
      out of the `applySortFilter` result `found` at increasing positions,
      namely the page window of the positions whose row `keep` lets
      through. */
  lemma RenderPageLists<T, C>(xs: seq<T>, s: TableState<C>, key: C -> T -> Key, field: T -> string, keep: T -> bool)
    ensures var found := ApplySortFilter(xs, s.order, key(s.orderBy), field, s.filterName);
      var rows := RenderPage(xs, s, key, field, keep).rows;
      && rows == Window(Filter(found, keep), s.page, s.rowsPerPage)
      && PicksOut(Window(KeptFrom(found, keep, 0), s.page, s.rowsPerPage), rows, found)
      && (forall i :: i in KeptFrom(found, keep, 0) <==> 0 <= i < |found| && keep(found[i]))
  {
    var found := ApplySortFilter(xs, s.order, key(s.orderBy), field, s.filterName);
    var kept := Filter(found, keep);
    assert RenderPage(xs, s, key, field, keep).rows == Window(kept, s.page, s.rowsPerPage);
    FilterIsSubsequence(found, keep);
    PicksOutWindow(KeptFrom(found, keep, 0), kept, found, s.page, s.rowsPerPage);
  }

  /** With no query the listed rows follow the comparator of the chosen
      column and direction. */
  lemma RenderPageSorted<T, C>(xs: seq<T>, s: TableState<C>, key: C -> T -> Key, field: T -> string, keep: T -> bool)
    requires s.filterName == ""
    ensures var rows := RenderPage(xs, s, key, field, keep).rows;
      forall i, j :: 0 <= i < j < |rows| ==> Comparator(s.order, key(s.orderBy)(rows[i]), key(s.orderBy)(rows[j])) <= 0
  {
    var found := ApplySortFilter(xs, s.order, key(s.orderBy), field, s.filterName);
    var rows := RenderPage(xs, s, key, field, keep).rows;
    var idx := Window(KeptFrom(found, keep, 0), s.page, s.rowsPerPage);
    RenderPageLists(xs, s, key, field, keep);
    SortBranchOrder(xs, s.order, key(s.orderBy), field);
    forall i, j | 0 <= i < j < |rows|
      ensures Comparator(s.order, key(s.orderBy)(rows[i]), key(s.orderBy)(rows[j])) <= 0
    {
      assert rows[i] == found[idx[i]] && rows[j] == found[idx[j]] && idx[i] < idx[j];
    }
  }

  /** With a query the listed rows keep their snapshot order: they are picked
      out of the snapshot at increasing positions. */
  lemma RenderPageInSnapshotOrder<T, C>(xs: seq<T>, s: TableState<C>, key: C -> T -> Key, field: T -> string, keep: T -> bool)
    requires |s.filterName| > 0
    ensures var found := ApplySortFilter(xs, s.order, key(s.orderBy), field, s.filterName);
      PicksOut(Compose(KeptFrom(xs, SearchHit(field, s.filterName), 0), Window(KeptFrom(found, keep, 0), s.page, s.rowsPerPage)),
               RenderPage(xs, s, key, field, keep).rows, xs)
  {
    var found := ApplySortFilter(xs, s.order, key(s.orderBy), field, s.filterName);
    RenderPageLists(xs, s, key, field, keep);
    SearchBranchOrder(xs, s.order, key(s.orderBy), field, s.filterName);
    PicksOutCompose(KeptFrom(xs, SearchHit(field, s.filterName), 0), found, xs,
                    Window(KeptFrom(found, keep, 0), s.page, s.rowsPerPage), RenderPage(xs, s, key, field, keep).rows);
  }

  /** A snapshot row that contains the query (any row, with no query) is
      in the `applySortFilter` result. */
  lemma ApplySortFilterFinds<T>(xs: seq<T>, order: Order, key: T -> Key, field: T -> string, query: string, x: T)
    requires x in xs
    requires |query| == 0 || Matches(field(x), query)
    ensures x in ApplySortFilter(xs, order, key, field, query)
  {
    if |query| > 0 {
      FilterFinds(xs, SearchHit(field, query), x);
    } else {
      ApplySortFilterPermutes(xs, order, key, field);
      assert x in multiset(ApplySortFilter(xs, order, key, field, query));
    }
  }

  /** The page on which position `k` of a list falls. */
  function PageOf(k: nat, rowsPerPage: nat): (page: nat)
    requires rowsPerPage > 0
    ensures page * rowsPerPage <= k < (page + 1) * rowsPerPage
  {
    k / rowsPerPage
  }

  /** Every snapshot row that passes `keep` and contains the query (any row,
      with no query) is listed on some page. */
  lemma RenderPageComplete<T, C>(xs: seq<T>, s: TableState<C>, key: C -> T -> Key, field: T -> string, keep: T -> bool, x: T)
    requires s.rowsPerPage > 0 && x in xs && keep(x)
    requires |s.filterName| == 0 || Matches(field(x), s.filterName)
    ensures exists page: nat :: x in RenderPage(xs, s.(page := page), key, field, keep).rows
  {
    var found := ApplySortFilter(xs, s.order, key(s.orderBy), field, s.filterName);
    ApplySortFilterFinds(xs, s.order, key(s.orderBy), field, s.filterName, x);
    FilterFinds(found, keep, x);
    var kept := Filter(found, keep);
    var k :| 0 <= k < |kept| && kept[k] == x;
    var page := PageOf(k, s.rowsPerPage);
    var s' := s.(page := page);
    assert s'.order == s.order && s'.orderBy == s.orderBy && s'.filterName == s.filterName && s'.rowsPerPage == s.rowsPerPage;
    RenderPageWindow(xs, s', key, field, keep);
    var rows := RenderPage(xs, s', key, field, keep).rows;
    assert rows[k % s.rowsPerPage] == x;
    assert x in rows;
  }

  /** "Not found" is raised exactly when the snapshot is empty or a query
      matches no row of it, whatever `keep` removes afterwards. */
  lemma RenderPageNotFound<T, C>(xs: seq<T>, s: TableState<C>, key: C -> T -> Key, field: T -> string, keep: T -> bool)
    ensures RenderPage(xs, s, key, field, keep).notFound <==>
      |xs| == 0 || (|s.filterName| > 0 && forall i :: 0 <= i < |xs| ==> !Matches(field(xs[i]), s.filterName))
  {
    ApplySortFilterEmpty(xs, s.order, key(s.orderBy), field, s.filterName);
  }
}

=== FILE: ndis_page.dfy ===
/** The Ndis list page: the pipeline instantiated with the NDIS item
    columns, searched on `itemNumber`, with no status projection; and the
    row selection. */
module NdisPage {
  import opened Keys
  import opened Text
  import opened Sequences
  import opened Table
  import opened ListPipeline
  import opened Selection
  import opened StableSort

  /** An NDIS line item. `name` is only read by select-all;
      `planManagementDetail` is 1 for plan management and 0 for NDIS
      management. */
  datatype NdisItem = NdisItem(
    id: string,
    client: string,
    itemNumber: string,
    rate: real,
    amount: real,
    date: string,
    hours: real,
    planManagementDetail: real,
    tax: string,
    name: string)

  /** The sortable columns of the item table. */
  datatype NdisColumn =
    | Client | ItemNumber | Rate | Amount | Date | Hours | PlanManager | Tax

  /** `row[orderBy]`, with the "Plan Manager" column keyed on
      `planManagementDetail`, the field its cell shows. */
  function Cell(n: NdisItem, column: NdisColumn): Key {
    match column
    case Client => Text(n.client)
    case ItemNumber => Text(n.itemNumber)
    case Rate => Number(n.rate)
    case Amount => Number(n.amount)
    case Date => Text(n.date)
    case Hours => Number(n.hours)
    case PlanManager => Number(n.planManagementDetail)
    case Tax => Text(n.tax)
  }

  function SortKey(column: NdisColumn): NdisItem -> Key {
    (n: NdisItem) => Cell(n, column)
  }

  /** The cell the comparator reads under the "Plan Manager" header as
      written: the header's id is `planManager`, a field the items do not
      carry, so every item yields the same undefined cell and every
      comparison is a tie. */
  const AbsentCell: Key := Text("")

  /** `row[orderBy]` as written: `Cell`, except that "Plan Manager" reads
      the absent `planManager` field. */
  function CellAsWritten(n: NdisItem, column: NdisColumn): Key {
    if column == PlanManager then AbsentCell else Cell(n, column)
  }

  function SortKeyAsWritten(column: NdisColumn): NdisItem -> Key {
    (n: NdisItem) => CellAsWritten(n, column)
  }

  /** The search box looks at the item number. */
  function ItemNumberOf(n: NdisItem): string {
    n.itemNumber
  }

  /** The page has no status projection: every found item is listed. */
  function Listed(n: NdisItem): bool {
    true
  }

  /** The page opens on the first page, ascending by item number, 5 rows a
      page. */
  const Initial: TableState<NdisColumn> := InitialState(ItemNumber, 5)

  /** The opening view: first page, ascending by item number, at most five
      rows, and no filler rows. */
  lemma InitialView(items: seq<NdisItem>)
    ensures Initial.page == 0 && Initial.order == Asc && Initial.orderBy == ItemNumber
    ensures Initial.rowsPerPage == 5 && Initial.filterName == ""
    ensures |Render(items, Initial).rows| <= 5 && Render(items, Initial).emptyRows == 0
  {
  }

  /** The rendered item table. */
  function Render(items: seq<NdisItem>, s: TableState<NdisColumn>): (v: PageView<NdisItem>)
    ensures |v.rows| <= s.rowsPerPage && v.count == |items|
    ensures s.page == 0 ==> v.emptyRows == 0
  {
    RenderPage(items, s, SortKey, ItemNumberOf, Listed)
  }

  /** The rendered item table as written, with the "Plan Manager" header
      sorting on the absent field. */
  function RenderAsWritten(items: seq<NdisItem>, s: TableState<NdisColumn>): (v: PageView<NdisItem>)
    ensures |v.rows| <= s.rowsPerPage && v.count == |items|
  {
    RenderPage(items, s, SortKeyAsWritten, ItemNumberOf, Listed)
  }

  /** As written, sorting on "Plan Manager" in either direction leaves the
      items in snapshot order: the page shows the snapshot's own window. */
  lemma PlanManagerSortKeepsSnapshot(items: seq<NdisItem>, s: TableState<NdisColumn>)
    requires s.orderBy == PlanManager && s.filterName == ""
    ensures RenderAsWritten(items, s).rows == Window(items, s.page, s.rowsPerPage)
  {
    var key := SortKeyAsWritten(PlanManager);
    SortStableAllTies(items, s.order, key);
    FilterKeepsAll(items, Listed);
    RenderPageWindow(items, s, SortKeyAsWritten, ItemNumberOf, Listed);
  }

  /** Sorting ascending on "Plan Manager" a plan-managed item listed before
      an NDIS-managed one: as written they stay in that order; keyed on
      `planManagementDetail` the NDIS-managed item comes first. */
  lemma PlanManagerSortIgnoresDetail()
    ensures var a := NdisItem("i1", "Alice", "01_011", 1.0, 1.0, "", 1.0, 1.0, "", "");
      var b := NdisItem("i2", "Bob", "01_012", 1.0, 1.0, "", 1.0, 0.0, "", "");
      var s := TableState(0, Asc, PlanManager, "", 5);
      RenderAsWritten([a, b], s).rows == [a, b] && Render([a, b], s).rows == [b, a]
  {
    var a := NdisItem("i1", "Alice", "01_011", 1.0, 1.0, "", 1.0, 1.0, "", "");
    var b := NdisItem("i2", "Bob", "01_012", 1.0, 1.0, "", 1.0, 0.0, "", "");
    var s := TableState(0, Asc, PlanManager, "", 5);
    PlanManagerSortKeepsSnapshot([a, b], s);
    assert Window([a, b], 0, 5) == [a, b];
    PairByDetail(a, b, s);
  }

  /** Two items with different details, sorted ascending on "Plan Manager"
      on one page: the smaller detail is listed first. */
  lemma PairByDetail(a: NdisItem, b: NdisItem, s: TableState<NdisColumn>)
    requires a.planManagementDetail > b.planManagementDetail
    requires s.orderBy == PlanManager && s.filterName == "" && s.order == Asc
    requires s.page == 0 && s.rowsPerPage >= 2
    ensures Render([a, b], s).rows == [b, a]
  {
    var rows := Render([a, b], s).rows;
    FirstPageListsAll([a, b], s);
    PlanManagerSortsByDetail([a, b], s);
    assert |rows| == 2;
    assert rows[0] in multiset{a, b} && rows[1] in multiset{a, b};
    assert rows[0].planManagementDetail <= rows[1].planManagementDetail;
    assert rows[0] != a && rows[1] != b;
    assert rows == [b, a];
  }

  /** Keyed on `planManagementDetail`, sorting on "Plan Manager" with no
      query lists NDIS-managed items before plan-managed ones ascending, and
      the reverse descending. */
  lemma PlanManagerSortsByDetail(items: seq<NdisItem>, s: TableState<NdisColumn>)
    requires s.orderBy == PlanManager && s.filterName == ""
    ensures var rows := Render(items, s).rows;
      && (s.order == Asc ==>
            forall i, j :: 0 <= i < j < |rows| ==> rows[i].planManagementDetail <= rows[j].planManagementDetail)
      && (s.order == Desc ==>
            forall i, j :: 0 <= i < j < |rows| ==> rows[i].planManagementDetail >= rows[j].planManagementDetail)
  {
    var rows := Render(items, s).rows;
    RenderOrder(items, s);
    forall i, j | 0 <= i < j < |rows|
      ensures s.order == Asc ==> rows[i].planManagementDetail <= rows[j].planManagementDetail
      ensures s.order == Desc ==> rows[i].planManagementDetail >= rows[j].planManagementDetail
    {
      assert Comparator(s.order, Cell(rows[i], PlanManager), Cell(rows[j], PlanManager)) <= 0;
    }
  }

  /** Nothing is projected away: the listed rows are one window of the
      `applySortFilter` result itself; they are items of the snapshot, they
      contain a non-empty query in their item number, and "not found" is
      raised exactly when nothing is found. */
  lemma RenderIsWindow(items: seq<NdisItem>, s: TableState<NdisColumn>)
    ensures var found := ApplySortFilter(items, s.order, SortKey(s.orderBy), ItemNumberOf, s.filterName);
      && Render(items, s).rows == Window(found, s.page, s.rowsPerPage)
      && (Render(items, s).notFound <==> |found| == 0)
    ensures forall i :: 0 <= i < |Render(items, s).rows| ==> Render(items, s).rows[i] in items
    ensures |s.filterName| > 0 ==>
      forall i :: 0 <= i < |Render(items, s).rows| ==> Matches(Render(items, s).rows[i].itemNumber, s.filterName)
  {
    var found := ApplySortFilter(items, s.order, SortKey(s.orderBy), ItemNumberOf, s.filterName);
    FilterKeepsAll(found, Listed);
    RenderPageRows(items, s, SortKey, ItemNumberOf, Listed);
    if |s.filterName| > 0 {
      RenderPageMatches(items, s, SortKey, ItemNumberOf, Listed);
    }
  }

  /** Every item that passes the page's projection and whose search field
      contains the query (every one, with no query) is listed on some page. */
  lemma RenderListsEveryItem(items: seq<NdisItem>, s: TableState<NdisColumn>, x: NdisItem)
    requires s.rowsPerPage > 0 && x in items
    requires |s.filterName| == 0 || Matches(x.itemNumber, s.filterName)
    ensures exists page: nat :: x in Render(items, s.(page := page)).rows
  {
    RenderPageComplete(items, s, SortKey, ItemNumberOf, Listed, x);
  }

  /** With no query the listed rows follow the comparator of the chosen
      column and direction; with a query they keep their snapshot order. */
  lemma RenderOrder(items: seq<NdisItem>, s: TableState<NdisColumn>)
    ensures var rows := Render(items, s).rows;
      && (s.filterName == "" ==>
            forall i, j :: 0 <= i < j < |rows| ==> Comparator(s.order, Cell(rows[i], s.orderBy), Cell(rows[j], s.orderBy)) <= 0)
      && (|s.filterName| > 0 ==> exists idx :: PicksOut(idx, rows, items))
  {
    var rows := Render(items, s).rows;
    if s.filterName == "" {
      RenderPageSorted(items, s, SortKey, ItemNumberOf, Listed);
      assert forall i :: 0 <= i < |rows| ==> SortKey(s.orderBy)(rows[i]) == Cell(rows[i], s.orderBy);
    } else {
      var found := ApplySortFilter(items, s.order, SortKey(s.orderBy), ItemNumberOf, s.filterName);
      RenderPageInSnapshotOrder(items, s, SortKey, ItemNumberOf, Listed);
      var idx := Compose(KeptFrom(items, SearchHit(ItemNumberOf, s.filterName), 0), Window(KeptFrom(found, Listed, 0), s.page, s.rowsPerPage));
      assert PicksOut(idx, rows, items);
    }
  }

  /** With no query, on the first page, and with a page large enough for the
      whole snapshot, every item is listed exactly once. */
  lemma FirstPageListsAll(items: seq<NdisItem>, s: TableState<NdisColumn>)
    requires s.filterName == "" && s.page == 0 && |items| <= s.rowsPerPage
    ensures multiset(Render(items, s).rows) == multiset(items)
  {
    var found := ApplySortFilter(items, s.order, SortKey(s.orderBy), ItemNumberOf, s.filterName);
    RenderIsWindow(items, s);
    ApplySortFilterPermutes(items, s.order, SortKey(s.orderBy), ItemNumberOf);
    assert Window(found, 0, s.rowsPerPage) == found;
  }

  /** `handleClick` on an item's checkbox toggles its client. */
  function ToggleItem(selected: seq<string>, n: NdisItem): (r: seq<string>)
    ensures n.client !in selected ==> r == selected + [n.client]
    ensures n.client in selected ==> multiset(r) == multiset(selected) - multiset{n.client}
  {
    Toggle(selected, n.client)
  }

  /** `selected.indexOf(client) !== -1`: the row's checkbox is ticked. */
  predicate IsSelected(selected: seq<string>, n: NdisItem) {
    IndexOf(selected, n.client) != -1
  }

  /** Clicking the checkbox of an unticked row ticks it, and clicking it
      again gives the selection back. */
  lemma ClickTwice(selected: seq<string>, n: NdisItem)
    requires !IsSelected(selected, n)
    ensures IsSelected(ToggleItem(selected, n), n)
    ensures ToggleItem(ToggleItem(selected, n), n) == selected
  {
    ToggleTwice(selected, n.client);
    assert ToggleItem(selected, n)[|selected|] == n.client;
  }

  /** `handleSelectAllClick` as written: it selects every item's `name`,
      while the row checkboxes look for `client`. */
  function SelectAllNames(items: seq<NdisItem>, checked: bool): (r: seq<string>)
    ensures checked ==> |r| == |items| && forall i :: 0 <= i < |items| ==> r[i] == items[i].name
    ensures !checked ==> r == []
  {
    SelectAll(items, checked, (n: NdisItem) => n.name)
  }

  /** An item whose `name` differs from its `client` stays unticked after
      select-all. */
  lemma SelectAllNamesMissesRow()
    ensures var n := NdisItem("i1", "Alice", "01_011", 1.0, 1.0, "", 1.0, 1.0, "", "");
      !IsSelected(SelectAllNames([n], true), n)
  {
    var n := NdisItem("i1", "Alice", "01_011", 1.0, 1.0, "", 1.0, 1.0, "", "");
    var selected := SelectAllNames([n], true);
    assert selected == [""];
    assert n.client !in selected;
  }

  /** Select-all on the field the checkboxes test: every item's `client`. */
  function SelectAllClients(items: seq<NdisItem>, checked: bool): (r: seq<string>)
    ensures checked ==> |r| == |items| && forall i :: 0 <= i < |items| ==> r[i] == items[i].client
    ensures !checked ==> r == []
  {
    SelectAll(items, checked, (n: NdisItem) => n.client)
  }

  /** After select-all on clients every item of the snapshot, hence every
      listed row, shows as ticked; unticking it clears every row. */
  lemma SelectAllClientsTicksEveryRow(items: seq<NdisItem>, s: TableState<NdisColumn>)
    ensures forall i :: 0 <= i < |items| ==> IsSelected(SelectAllClients(items, true), items[i])
    ensures forall i :: 0 <= i < |items| ==> !IsSelected(SelectAllClients(items, false), items[i])
    ensures var rows := Render(items, s).rows;
      forall i :: 0 <= i < |rows| ==> IsSelected(SelectAllClients(items, true), rows[i])
  {
    var selected := SelectAllClients(items, true);
    forall i | 0 <= i < |items|
      ensures IsSelected(selected, items[i])
    {
      assert selected[i] == items[i].client;
    }
    RenderIsWindow(items, s);
  }
}

=== FILE: optional.dfy ===
/** Optional values: a JavaScript value that may be `undefined` or `null`. */
module Optional {

  datatype Option<+T> = None | Some(value: T) {

    /** The value, or `default` when there is none. */
    function GetOr(default: T): T {
      match this
      case Some(v) => v
      case None => default
    }
  }
}

=== FILE: records.dfy ===
/** Documents of the store as the pages see them: every snapshot row is
    `{ id: doc.id, ...doc.data() }`, and every write is a full overwrite
    `collection.doc(id).set(data)` or an `add(data)`. */
module Records {
  import opened Optional
  import opened Sequences

  /** The soft-delete flag carried by clients, drivers and users. */
  datatype Status = Active | NonActive | Banned {

    /** The string stored in the document. */
    function Name(): string {
      match this
      case Active => "active"
      case NonActive => "non-active"
      case Banned => "banned"
    }
  }

  /** A snapshot row: the document id next to the document's fields. */
  datatype Row<D> = Row(id: string, data: D)

  /** A request to overwrite the whole document `docId` with `doc`. */
  datatype SetRequest<D> = SetRequest(docId: string, doc: D)

  /** The filter callback `(row) => id === row.id`; a missing query id (`null`)
      equals no row id. */
  function IdIs<D>(id: Option<string>): Row<D> -> bool {
    (row: Row<D>) => id == Some(row.id)
  }

  /** `rows.filter((row) => id === row.id)`: the edit-mode lookup. */
  function WithId<D>(rows: seq<Row<D>>, id: Option<string>): (r: seq<Row<D>>)
    ensures forall i :: 0 <= i < |r| ==> r[i] in rows && id == Some(r[i].id)
    ensures |r| == 0 <==> forall i :: 0 <= i < |rows| ==> id != Some(rows[i].id)
    ensures PicksOut(KeptFrom(rows, IdIs(id), 0), r, rows)
  {
    var r := Filter(rows, IdIs(id));
    FilterIsSubsequence(rows, IdIs(id));
    FilterFirst(rows, IdIs(id));
    r
  }

  /** Some row of the snapshot has document id `id`. */
  predicate HasId<D>(rows: seq<Row<D>>, id: string) {
    exists i :: 0 <= i < |rows| && rows[i].id == id
  }

  /** `rows.filter((row) => row.id === id)[0]`: the first row with that id.
      The pages only ask for ids of rows they displayed. */
  function FindById<D>(rows: seq<Row<D>>, id: string): (r: Row<D>)
    requires HasId(rows, id)
    ensures r.id == id
    ensures exists i :: 0 <= i < |rows| && rows[i] == r && forall j :: 0 <= j < i ==> rows[j].id != id
  {
    var found := WithId(rows, Some(id));
    FilterFirst(rows, IdIs<D>(Some(id)));
    found[0]
  }

  /** The next snapshot after `req` is applied: every row with that document
      id now holds the written document, and every other row is unchanged. */
  function ApplySet<D>(rows: seq<Row<D>>, req: SetRequest<D>): (r: seq<Row<D>>)
    ensures |r| == |rows|
    ensures forall i :: 0 <= i < |rows| ==> r[i].id == rows[i].id
    ensures forall i :: 0 <= i < |rows| && rows[i].id == req.docId ==> r[i].data == req.doc
    ensures forall i :: 0 <= i < |rows| && rows[i].id != req.docId ==> r[i] == rows[i]
  {
    seq(|rows|, i requires 0 <= i < |rows| =>
      if rows[i].id == req.docId then Row(rows[i].id, req.doc) else rows[i])
  }

  /** Document ids are unique within a snapshot. */
  ghost predicate UniqueIds<D>(rows: seq<Row<D>>) {
    forall i, j :: 0 <= i < j < |rows| ==> rows[i].id != rows[j].id
  }

  lemma {:induction false} NoHitsFrom<D>(rows: seq<Row<D>>, id: Option<string>, from: nat)
    requires forall k :: from <= k < |rows| ==> id != Some(rows[k].id)
    ensures KeptFrom(rows, IdIs(id), from) == []
    decreases |rows| - from
  {
    if from < |rows| {
      NoHitsFrom(rows, id, from + 1);
    }
  }

  lemma {:induction false} AtMostOneHitFrom<D>(rows: seq<Row<D>>, id: Option<string>, from: nat)
    requires UniqueIds(rows)
    ensures |KeptFrom(rows, IdIs(id), from)| <= 1
    decreases |rows| - from
  {
    if from < |rows| {
      if id == Some(rows[from].id) {
        NoHitsFrom(rows, id, from + 1);
      } else {
        AtMostOneHitFrom(rows, id, from + 1);
      }
    }
  }

  /** With unique ids the edit-mode lookup finds at most one row. */
  lemma WithIdAtMostOne<D>(rows: seq<Row<D>>, id: Option<string>)
    requires UniqueIds(rows)
    ensures |WithId(rows, id)| <= 1
  {
    AtMostOneHitFrom(rows, id, 0);
  }
}

=== FILE: selection.dfy ===
/** Row selection on the Driver and Ndis pages: the select-all checkbox and
    the per-row toggle. */
module Selection {
  import opened Sequences

  /** `handleSelectAllClick`: when checked, the label of every row of the
      snapshot in snapshot order; when unchecked, nothing. */
  function SelectAll<T, L>(rows: seq<T>, checked: bool, labelOf: T -> L): (r: seq<L>)
    ensures checked ==> |r| == |rows| && forall i :: 0 <= i < |rows| ==> r[i] == labelOf(rows[i])
    ensures !checked ==> r == []
  {
    if checked then seq(|rows|, i requires 0 <= i < |rows| => labelOf(rows[i])) else []
  }

  /** `handleClick`: an absent name is appended; a present name loses its
      first occurrence (the source treats the first, the last and a middle
      position as separate cases). */
  function Toggle<L(==)>(selected: seq<L>, name: L): (r: seq<L>)
    ensures name !in selected ==> r == selected + [name]
    ensures name in selected ==>
      var i := IndexOf(selected, name);
      0 <= i < |selected| && r == selected[..i] + selected[i + 1..]
    ensures name !in selected ==> multiset(r) == multiset(selected) + multiset{name}
    ensures name in selected ==> multiset(r) == multiset(selected) - multiset{name}
  {
    var selectedIndex := IndexOf(selected, name);
    var r :=
      if selectedIndex == -1 then selected + [name]
      else if selectedIndex == 0 then selected[1..]
      else if selectedIndex == |selected| - 1 then selected[..|selected| - 1]
      else selected[..selectedIndex] + selected[selectedIndex + 1..];
    if name in selected then
      assert selected == selected[..selectedIndex] + [name] + selected[selectedIndex + 1..];
      assert selectedIndex == 0 ==> selected[..selectedIndex] == [];
      assert selectedIndex == |selected| - 1 ==> selected[selectedIndex + 1..] == [];
      r
    else r
  }

  /** Toggling an absent name twice gives the original selection back. */
  lemma ToggleTwice<L>(selected: seq<L>, name: L)
    requires name !in selected
    ensures Toggle(Toggle(selected, name), name) == selected
  {
    var once := Toggle(selected, name);
    assert IndexOf(once, name) == |selected| by {
      assert once[|selected|] == name;
      assert once[..|selected|] == selected;
    }
    assert once[..|selected|] == selected;
  }

  /** Removing one position from a selection without duplicates leaves a
      selection without duplicates that no longer holds that element. */
  lemma RemoveAtDistinct<L>(selected: seq<L>, k: nat)
    requires k < |selected|
    requires forall i, j :: 0 <= i < j < |selected| ==> selected[i] != selected[j]
    ensures var r := selected[..k] + selected[k + 1..];
      (forall i :: 0 <= i < |r| ==> r[i] != selected[k])
      && (forall i, j :: 0 <= i < j < |r| ==> r[i] != r[j])
  {
    var r := selected[..k] + selected[k + 1..];
    assert forall i :: 0 <= i < |r| ==> r[i] == selected[if i < k then i else i + 1];
  }

  /** On a selection without duplicates the toggle really toggles: the name
      is selected afterwards exactly when it was not before, and no duplicate
      appears. */
  lemma ToggleDistinct<L>(selected: seq<L>, name: L)
    requires forall i, j :: 0 <= i < j < |selected| ==> selected[i] != selected[j]
    ensures name in Toggle(selected, name) <==> name !in selected
    ensures var r := Toggle(selected, name); forall i, j :: 0 <= i < j < |r| ==> r[i] != r[j]
  {
    if name in selected {
      RemoveAtDistinct(selected, IndexOf(selected, name));
    }
  }
}

=== FILE: sequences.dfy ===
/** The array operations the list pages lean on: `filter`, `indexOf` and
    `slice`, with the facts about them the pipeline needs. */
module Sequences {

  /** `filter(xs, p)`: the elements of `xs` that satisfy `p`, in their
      original order. */
  function Filter<T>(xs: seq<T>, p: T -> bool): (r: seq<T>)
    ensures |r| <= |xs|
    ensures forall i :: 0 <= i < |r| ==> p(r[i])
    ensures forall i :: 0 <= i < |r| ==> r[i] in xs
    decreases |xs|
  {
    if |xs| == 0 then []
    else if p(xs[0]) then [xs[0]] + Filter(xs[1..], p)
    else Filter(xs[1..], p)
  }

  /** The positions `i >= from` of `xs` whose element satisfies `p`, in
      increasing order: an index-level description of `Filter`. */
  function KeptFrom<T>(xs: seq<T>, p: T -> bool, from: nat): seq<nat>
    decreases |xs| - from
  {
    if from >= |xs| then []
    else if p(xs[from]) then [from] + KeptFrom(xs, p, from + 1)
    else KeptFrom(xs, p, from + 1)
  }

  /** `idx` picks `r` out of `xs`: `r[k] == xs[idx[k]]` at strictly
      increasing positions, so `r` is a subsequence of `xs`. */
  ghost predicate PicksOut<T>(idx: seq<nat>, r: seq<T>, xs: seq<T>) {
    && |idx| == |r|
    && (forall k :: 0 <= k < |idx| ==> idx[k] < |xs| && r[k] == xs[idx[k]])
    && (forall k, l :: 0 <= k < l < |idx| ==> idx[k] < idx[l])
  }

  /** The positions `KeptFrom` lists are exactly those from `from` on whose
      element satisfies `p`. */
  lemma {:induction false} KeptFromMembers<T>(xs: seq<T>, p: T -> bool, from: nat)
    ensures forall i :: i in KeptFrom(xs, p, from) <==> from <= i < |xs| && p(xs[i])
    decreases |xs| - from
  {
    if from < |xs| {
      KeptFromMembers(xs, p, from + 1);
    }
  }

  /** Putting a position before every position of a pick-out keeps it a
      pick-out. */
  lemma PicksOutCons<T>(i: nat, idx: seq<nat>, r: seq<T>, xs: seq<T>)
    requires i < |xs| && PicksOut(idx, r, xs)
    requires forall k :: 0 <= k < |idx| ==> i < idx[k]
    ensures PicksOut([i] + idx, [xs[i]] + r, xs)
  {
    var idx', r' := [i] + idx, [xs[i]] + r;
    forall k | 0 < k < |idx'|
      ensures idx'[k] == idx[k - 1] && r'[k] == r[k - 1]
    {
    }
  }

  /** `KeptFrom` picks `Filter` of the suffix out of `xs`. */
  lemma {:induction false} KeptFromPicksOut<T>(xs: seq<T>, p: T -> bool, from: nat)
    requires from <= |xs|
    ensures PicksOut(KeptFrom(xs, p, from), Filter(xs[from..], p), xs)
    decreases |xs| - from
  {
    if from < |xs| {
      var rest, picked := KeptFrom(xs, p, from + 1), Filter(xs[from + 1..], p);
      KeptFromPicksOut(xs, p, from + 1);
      assert xs[from..][0] == xs[from];
      assert xs[from..][1..] == xs[from + 1..];
      if p(xs[from]) {
        KeptFromMembers(xs, p, from + 1);
        assert forall k :: 0 <= k < |rest| ==> from < rest[k] by {
          forall k | 0 <= k < |rest|
            ensures from < rest[k]
          {
            assert rest[k] in rest;
          }
        }
        PicksOutCons(from, rest, picked, xs);
      }
    }
  }

  /** `Filter` keeps exactly the positions whose element satisfies `p` and
      nothing else, in their original order. */
  lemma FilterIsSubsequence<T>(xs: seq<T>, p: T -> bool)
    ensures PicksOut(KeptFrom(xs, p, 0), Filter(xs, p), xs)
    ensures forall i :: i in KeptFrom(xs, p, 0) <==> 0 <= i < |xs| && p(xs[i])
  {
    KeptFromPicksOut(xs, p, 0);
    KeptFromMembers(xs, p, 0);
    assert xs[0..] == xs;
  }

  /** An element of `xs` that satisfies `p` survives the filter. */
  lemma FilterFinds<T>(xs: seq<T>, p: T -> bool, x: T)
    requires x in xs && p(x)
    ensures x in Filter(xs, p)
  {
    var idx := KeptFrom(xs, p, 0);
    FilterIsSubsequence(xs, p);
    var j :| 0 <= j < |xs| && xs[j] == x;
    assert j in idx;
    var m :| 0 <= m < |idx| && idx[m] == j;
    assert Filter(xs, p)[m] == x;
  }

  /** The positions `inner` picks out of `outer`, looked up in `outer`. */
  function Compose(outer: seq<nat>, inner: seq<nat>): (r: seq<nat>)
    ensures |r| == |inner|
    ensures forall k :: 0 <= k < |inner| && inner[k] < |outer| ==> r[k] == outer[inner[k]]
  {
    seq(|inner|, k requires 0 <= k < |inner| => if inner[k] < |outer| then outer[inner[k]] else 0)
  }

  /** A subsequence of a subsequence is a subsequence, at the composed
      positions. */
  lemma PicksOutCompose<T>(outer: seq<nat>, ys: seq<T>, xs: seq<T>, inner: seq<nat>, zs: seq<T>)
    requires PicksOut(outer, ys, xs) && PicksOut(inner, zs, ys)
    ensures PicksOut(Compose(outer, inner), zs, xs)
  {
    var idx := Compose(outer, inner);
    forall k | 0 <= k < |idx|
      ensures idx[k] == outer[inner[k]] && idx[k] < |xs| && zs[k] == xs[idx[k]]
    {
    }
  }

  /** `Filter` finds nothing exactly when no element satisfies `p`; when it
      finds something, its first result is the first element satisfying `p`. */
  lemma {:induction false} FilterFirst<T>(xs: seq<T>, p: T -> bool)
    ensures |Filter(xs, p)| == 0 <==> forall i :: 0 <= i < |xs| ==> !p(xs[i])
    ensures |Filter(xs, p)| > 0 ==>
      exists i :: 0 <= i < |xs| && xs[i] == Filter(xs, p)[0] && p(xs[i]) && (forall j :: 0 <= j < i ==> !p(xs[j]))
    decreases |xs|
  {
    if |xs| > 0 && !p(xs[0]) {
      FilterFirst(xs[1..], p);
      if |Filter(xs, p)| > 0 {
        var i :| 0 <= i < |xs[1..]| && xs[1..][i] == Filter(xs, p)[0] && p(xs[1..][i])
          && forall j :: 0 <= j < i ==> !p(xs[1..][j]);
        assert xs[i + 1] == Filter(xs, p)[0];
        assert forall j :: 0 <= j < i + 1 ==> !p(xs[j]) by {
          forall j | 0 <= j < i + 1
            ensures !p(xs[j])
          {
            if j > 0 {
              assert xs[j] == xs[1..][j - 1];
            }
          }
        }
      } else {
        assert forall i :: 0 <= i < |xs| ==> !p(xs[i]) by {
          forall i | 0 <= i < |xs|
            ensures !p(xs[i])
          {
            if i > 0 {
              assert xs[i] == xs[1..][i - 1];
            }
          }
        }
      }
    } else if |xs| > 0 {
      assert xs[0] == Filter(xs, p)[0];
    }
  }

  /** A predicate every element already satisfies removes nothing. */
  lemma {:induction false} FilterKeepsAll<T>(xs: seq<T>, p: T -> bool)
    requires forall i :: 0 <= i < |xs| ==> p(xs[i])
    ensures Filter(xs, p) == xs
    decreases |xs|
  {
    if |xs| > 0 {
      FilterKeepsAll(xs[1..], p);
      assert [xs[0]] + xs[1..] == xs;
    }
  }

  /** `Array.prototype.indexOf`: the first position of `x` in `s`, or -1. */
  function IndexOf<T(==)>(s: seq<T>, x: T): (r: int)
    ensures r == -1 <==> x !in s
    ensures 0 <= r ==> r < |s| && s[r] == x && x !in s[..r]
    ensures -1 <= r
    decreases |s|
  {
    if |s| == 0 then -1
    else if s[0] == x then 0
    else
      var k := IndexOf(s[1..], x);
      assert s[1..][..k + 1] == s[1..k + 2] by { assert k + 1 <= |s[1..]|; }
      if k == -1 then -1 else k + 1
  }

  /** `Array.prototype.slice(start, end)` for non-negative bounds: the bounds
      are clamped to the length, and an empty range gives no elements. */
  function Slice<T>(xs: seq<T>, start: nat, end: nat): (r: seq<T>)
    ensures |r| <= |xs|
    ensures start >= |xs| || end <= start ==> |r| == 0
    ensures start < end && start < |xs| ==> |r| == (if end < |xs| then end else |xs|) - start
    ensures forall i :: 0 <= i < |r| ==> start + i < |xs| && r[i] == xs[start + i]
  {
    var e := if end < |xs| then end else |xs|;
    if start < e then xs[start..e] else []
  }
}

=== FILE: stable_sort.dfy ===
/** The stable sort inside `applySortFilter`: every row is tagged with its
    original position (`stabilizedThis`), the tagged rows are sorted by the
    comparator with the position breaking ties, and the tags are dropped.

    `Array.prototype.sort` leaves its algorithm unspecified; because the tie
    break makes the callback a strict total order on tagged rows, the result
    is the same for every correct sorting algorithm (`SortedIsUnique`), so an
    insertion sort serves as the reference. */
module StableSort {
  import opened Keys

  /** `array.map((el, index) => [el, index])`. */
  function Tag<T>(xs: seq<T>): (r: seq<(T, nat)>)
    ensures |r| == |xs|
    ensures forall i :: 0 <= i < |xs| ==> r[i] == (xs[i], i)
  {
    seq(|xs|, i requires 0 <= i < |xs| => (xs[i], i))
  }

  /** The elements of tagged rows: `stabilizedThis.map((el) => el[0])`. */
  function Firsts<T>(ps: seq<(T, nat)>): (r: seq<T>)
    ensures |r| == |ps|
    ensures forall i :: 0 <= i < |ps| ==> r[i] == ps[i].0
  {
    seq(|ps|, i requires 0 <= i < |ps| => ps[i].0)
  }

  /** The original positions of tagged rows. */
  function Positions<T>(ps: seq<(T, nat)>): (r: seq<nat>)
    ensures |r| == |ps|
    ensures forall i :: 0 <= i < |ps| ==> r[i] == ps[i].1
  {
    seq(|ps|, i requires 0 <= i < |ps| => ps[i].1)
  }

  /** The sort callback: the rows' comparator, and on a tie `a[1] - b[1]`. */
  function TieBreak<T>(order: Order, key: T -> Key, p: (T, nat), q: (T, nat)): int {
    var c := Comparator(order, key(p.0), key(q.0));
    if c != 0 then c else p.1 - q.1
  }

  /** Every earlier tagged row goes strictly before every later one. */
  ghost predicate StrictlySorted<T>(order: Order, key: T -> Key, ps: seq<(T, nat)>) {
    forall i, j :: 0 <= i < j < |ps| ==> TieBreak(order, key, ps[i], ps[j]) < 0
  }

  /** No two tagged rows carry the same position. */
  ghost predicate DistinctTags<T>(ps: seq<(T, nat)>) {
    forall i, j :: 0 <= i < j < |ps| ==> ps[i].1 != ps[j].1
  }

  /** The tie-broken callback is antisymmetric and transitive, and it is zero
      only on rows with equal keys and equal positions. */
  lemma TieBreakLaws<T>(order: Order, key: T -> Key, a: (T, nat), b: (T, nat), c: (T, nat))
    ensures TieBreak(order, key, a, b) == -TieBreak(order, key, b, a)
    ensures TieBreak(order, key, a, b) == 0 <==> key(a.0) == key(b.0) && a.1 == b.1
    ensures TieBreak(order, key, a, b) < 0 && TieBreak(order, key, b, c) < 0 ==> TieBreak(order, key, a, c) < 0
  {
    ComparatorTransitive(order, key(a.0), key(b.0), key(c.0));
  }

  /** Inserts `p` in front of the first row it goes before. */
  function Insert<T>(order: Order, key: T -> Key, p: (T, nat), ps: seq<(T, nat)>): (r: seq<(T, nat)>)
    ensures |r| == |ps| + 1
    ensures multiset(r) == multiset(ps) + multiset{p}
    decreases |ps|
  {
    if |ps| == 0 then [p]
    else if TieBreak(order, key, p, ps[0]) < 0 then [p] + ps
    else
      assert ps == [ps[0]] + ps[1..];
      [ps[0]] + Insert(order, key, p, ps[1..])
  }

  /** Insertion sort of tagged rows with the tie-broken callback. */
  function SortTagged<T>(order: Order, key: T -> Key, ps: seq<(T, nat)>): (r: seq<(T, nat)>)
    ensures |r| == |ps|
    ensures multiset(r) == multiset(ps)
    decreases |ps|
  {
    if |ps| == 0 then []
    else
      assert ps == [ps[0]] + ps[1..];
      Insert(order, key, ps[0], SortTagged(order, key, ps[1..]))
  }

  lemma {:induction false} InsertSorted<T>(order: Order, key: T -> Key, p: (T, nat), ps: seq<(T, nat)>)
    requires StrictlySorted(order, key, ps)
    requires forall i :: 0 <= i < |ps| ==> ps[i].1 != p.1
    ensures StrictlySorted(order, key, Insert(order, key, p, ps))
    decreases |ps|
  {
    if |ps| == 0 {
    } else if TieBreak(order, key, p, ps[0]) < 0 {
      var r := [p] + ps;
      forall i, j | 0 <= i < j < |r|
        ensures TieBreak(order, key, r[i], r[j]) < 0
      {
        if i == 0 && j > 1 {
          TieBreakLaws(order, key, p, ps[0], ps[j - 1]);
        }
      }
    } else {
      TieBreakLaws(order, key, p, ps[0], p);
      InsertSorted(order, key, p, ps[1..]);
      var tail := Insert(order, key, p, ps[1..]);
      var r := [ps[0]] + tail;
      forall i, j | 0 <= i < j < |r|
        ensures TieBreak(order, key, r[i], r[j]) < 0
      {
        if i == 0 {
          var x := r[j];
          assert x in multiset(tail);
          assert x in multiset(ps[1..]) || x == p;
          if x != p {
            var k :| 0 <= k < |ps[1..]| && ps[1..][k] == x;
            assert ps[k + 1] == x;
          }
        }
      }
    }
  }

  lemma {:induction false} SortTaggedSorted<T>(order: Order, key: T -> Key, ps: seq<(T, nat)>)
    requires DistinctTags(ps)
    ensures StrictlySorted(order, key, SortTagged(order, key, ps))
    decreases |ps|
  {
    if |ps| > 0 {
      var rest := SortTagged(order, key, ps[1..]);
      SortTaggedSorted(order, key, ps[1..]);
      forall i | 0 <= i < |rest|
        ensures rest[i].1 != ps[0].1
      {
        assert rest[i] in multiset(ps[1..]);
        var k :| 0 <= k < |ps[1..]| && ps[1..][k] == rest[i];
        assert ps[k + 1] == rest[i];
      }
      InsertSorted(order, key, ps[0], rest);
    }
  }

  /** Two strictly sorted arrangements of the same tagged rows start with
      the same row: each one's head goes before every other row. */
  lemma SortedHeadsAgree<T>(order: Order, key: T -> Key, a: seq<(T, nat)>, b: seq<(T, nat)>)
    requires |a| > 0 && multiset(a) == multiset(b)
    requires StrictlySorted(order, key, a) && StrictlySorted(order, key, b)
    ensures |b| > 0 && a[0] == b[0]
  {
    assert a[0] in multiset(b);
    var j :| 0 <= j < |b| && b[j] == a[0];
    assert b[0] in multiset(a);
    var i :| 0 <= i < |a| && a[i] == b[0];
    if a[0] != b[0] {
      assert TieBreak(order, key, b[0], a[0]) < 0;
      assert TieBreak(order, key, a[0], b[0]) < 0;
      TieBreakLaws(order, key, a[0], b[0], a[0]);
    }
  }

  /** Dropping the head keeps an arrangement strictly sorted. */
  lemma SortedTail<T>(order: Order, key: T -> Key, a: seq<(T, nat)>)
    requires |a| > 0 && StrictlySorted(order, key, a)
    ensures StrictlySorted(order, key, a[1..])
  {
    forall i, j | 0 <= i < j < |a| - 1
      ensures TieBreak(order, key, a[1..][i], a[1..][j]) < 0
    {
      assert a[1..][i] == a[i + 1] && a[1..][j] == a[j + 1];
    }
  }

  /** Two strictly sorted arrangements of the same tagged rows are equal: the
      sorted order does not depend on the sorting algorithm. */
  lemma {:induction false} SortedIsUnique<T>(order: Order, key: T -> Key, a: seq<(T, nat)>, b: seq<(T, nat)>)
    requires multiset(a) == multiset(b)
    requires StrictlySorted(order, key, a) && StrictlySorted(order, key, b)
    ensures a == b
    decreases |a|
  {
    assert |a| == |multiset(a)| == |multiset(b)| == |b|;
    if |a| > 0 {
      SortedHeadsAgree(order, key, a, b);
      assert a == [a[0]] + a[1..] && b == [b[0]] + b[1..];
      assert multiset(a[1..]) == multiset(a) - multiset{a[0]};
      assert multiset(b[1..]) == multiset(b) - multiset{b[0]};
      SortedTail(order, key, a);
      SortedTail(order, key, b);
      SortedIsUnique(order, key, a[1..], b[1..]);
    }
  }

  /** `Firsts` distributes over insertion. */
  lemma FirstsCons<T>(p: (T, nat), ps: seq<(T, nat)>)
    ensures Firsts([p] + ps) == [p.0] + Firsts(ps)
  {
  }

  lemma FirstsHead<T>(ps: seq<(T, nat)>)
    requires |ps| > 0
    ensures Firsts(ps) == [ps[0].0] + Firsts(ps[1..])
  {
  }

  lemma {:induction false} FirstsInsert<T>(order: Order, key: T -> Key, p: (T, nat), ps: seq<(T, nat)>)
    ensures multiset(Firsts(Insert(order, key, p, ps))) == multiset(Firsts(ps)) + multiset{p.0}
    decreases |ps|
  {
    if |ps| > 0 && TieBreak(order, key, p, ps[0]) >= 0 {
      var ins, rest := Insert(order, key, p, ps), Insert(order, key, p, ps[1..]);
      FirstsInsert(order, key, p, ps[1..]);
      assert ins[0] == ps[0] && ins[1..] == rest;
      FirstsHead(ins);
      FirstsHead(ps);
      calc {
        multiset(Firsts(ins));
        multiset([ps[0].0] + Firsts(rest));
        multiset{ps[0].0} + multiset(Firsts(ps[1..])) + multiset{p.0};
        multiset([ps[0].0] + Firsts(ps[1..])) + multiset{p.0};
      }
    } else {
      FirstsCons(p, ps);
    }
  }

  lemma {:induction false} FirstsSort<T>(order: Order, key: T -> Key, ps: seq<(T, nat)>)
    ensures multiset(Firsts(SortTagged(order, key, ps))) == multiset(Firsts(ps))
    decreases |ps|
  {
    if |ps| > 0 {
      var rest := SortTagged(order, key, ps[1..]);
      FirstsSort(order, key, ps[1..]);
      FirstsInsert(order, key, ps[0], rest);
      FirstsHead(ps);
      calc {
        multiset(Firsts(SortTagged(order, key, ps)));
        multiset(Firsts(Insert(order, key, ps[0], rest)));
        multiset(Firsts(rest)) + multiset{ps[0].0};
        multiset(Firsts(ps[1..])) + multiset{ps[0].0};
        multiset([ps[0].0] + Firsts(ps[1..]));
      }
    }
  }

  /** The original positions of the rows in sorted order: the second
      components of the sorted `stabilizedThis`. */
  function SortedPositions<T>(xs: seq<T>, order: Order, key: T -> Key): (r: seq<nat>)
    ensures |r| == |xs|
    ensures forall i :: 0 <= i < |r| ==> r[i] < |xs|
    ensures forall k :: 0 <= k < |xs| ==> k in r
  {
    TaggedPermutation(xs, SortTagged(order, key, Tag(xs)));
    Positions(SortTagged(order, key, Tag(xs)))
  }

  /** Each sorted tagged row is one of the original ones, and each original
      position occurs. */
  lemma TaggedPermutation<T>(xs: seq<T>, sorted: seq<(T, nat)>)
    requires multiset(sorted) == multiset(Tag(xs))
    ensures forall i :: 0 <= i < |sorted| ==> sorted[i].1 < |xs| && sorted[i].0 == xs[sorted[i].1]
    ensures forall k :: 0 <= k < |xs| ==> k in Positions(sorted)
  {
    var tagged := Tag(xs);
    forall i | 0 <= i < |sorted|
      ensures sorted[i].1 < |xs| && sorted[i].0 == xs[sorted[i].1]
    {
      assert sorted[i] in multiset(tagged);
      var k :| 0 <= k < |tagged| && tagged[k] == sorted[i];
    }
    forall k | 0 <= k < |xs|
      ensures k in Positions(sorted)
    {
      assert tagged[k] in multiset(sorted);
      var i :| 0 <= i < |sorted| && sorted[i] == tagged[k];
      assert Positions(sorted)[i] == k;
    }
  }

  /** A strictly sorted arrangement is ordered by the comparator, and rows
      that compare equal appear in increasing original position. */
  lemma StrictlySortedMeansStable<T>(order: Order, key: T -> Key, ps: seq<(T, nat)>)
    requires StrictlySorted(order, key, ps)
    ensures forall i, j :: 0 <= i < j < |ps| ==> Comparator(order, key(ps[i].0), key(ps[j].0)) <= 0
    ensures forall i, j :: 0 <= i < j < |ps| && Comparator(order, key(ps[i].0), key(ps[j].0)) == 0 ==>
      ps[i].1 < ps[j].1
  {
    forall i, j | 0 <= i < j < |ps|
      ensures Comparator(order, key(ps[i].0), key(ps[j].0)) <= 0
    {
      assert TieBreak(order, key, ps[i], ps[j]) < 0;
    }
  }

  /** The empty-query branch of `applySortFilter`: a permutation of `xs`.
      How it is ordered is `SortStableOrdered`. */
  function SortStable<T>(xs: seq<T>, order: Order, key: T -> Key): (r: seq<T>)
    ensures |r| == |xs| && multiset(r) == multiset(xs)
  {
    var tagged := Tag(xs);
    FirstsSort(order, key, tagged);
    assert Firsts(tagged) == xs;
    Firsts(SortTagged(order, key, tagged))
  }

  /** `SortStable` orders the rows by the comparator; `SortedPositions`
      says where each row came from, and rows that compare equal keep their
      original relative order. */
  lemma SortStableOrdered<T>(xs: seq<T>, order: Order, key: T -> Key)
    ensures var r := SortStable(xs, order, key);
      var pos := SortedPositions(xs, order, key);
      && (forall i :: 0 <= i < |r| ==> r[i] == xs[pos[i]])
      && (forall i, j :: 0 <= i < j < |r| ==> Comparator(order, key(r[i]), key(r[j])) <= 0)
      && (forall i, j :: 0 <= i < j < |r| && Comparator(order, key(r[i]), key(r[j])) == 0 ==> pos[i] < pos[j])
  {
    var tagged := Tag(xs);
    var sorted := SortTagged(order, key, tagged);
    SortTaggedSorted(order, key, tagged);
    FirstsSort(order, key, tagged);
    TaggedPermutation(xs, sorted);
    StrictlySortedMeansStable(order, key, sorted);
  }

  /** Whatever algorithm sorts the tagged rows, a strictly sorted
      rearrangement of them is exactly the one `SortStable` is built from. */
  lemma AnySortAgrees<T>(xs: seq<T>, order: Order, key: T -> Key, ps: seq<(T, nat)>)
    requires multiset(ps) == multiset(Tag(xs))
    requires StrictlySorted(order, key, ps)
    ensures ps == SortTagged(order, key, Tag(xs))
    ensures Firsts(ps) == SortStable(xs, order, key)
  {
    SortTaggedSorted(order, key, Tag(xs));
    SortedIsUnique(order, key, ps, SortTagged(order, key, Tag(xs)));
  }

  /** When every row has the same key the comparator ties on every pair, so
      the index tie-break alone decides and the sort returns the input
      unchanged. */
  lemma {:induction false} SortStableAllTies<T>(xs: seq<T>, order: Order, key: T -> Key)
    requires forall i :: 0 <= i < |xs| ==> key(xs[i]) == key(xs[0])
    ensures SortStable(xs, order, key) == xs
  {
    var tagged := Tag(xs);
    forall i, j | 0 <= i < j < |tagged|
      ensures TieBreak(order, key, tagged[i], tagged[j]) < 0
    {
      assert key(tagged[i].0) == key(tagged[j].0);
    }
    AnySortAgrees(xs, order, key, tagged);
    assert Firsts(tagged) == xs;
  }
}

=== FILE: table.dfy ===
/** The table state each list page keeps (`page`, `order`, `orderBy`,
    `filterName`, `rowsPerPage`) and the handlers that change it. */
module Table {
  import opened Keys

  /** The state of one list table, with columns of type `C`. */
  datatype TableState<C> = TableState(page: nat, order: Order, orderBy: C, filterName: string, rowsPerPage: nat)

  /** A fresh table: first page, ascending on `orderBy`, no filter. */
  function InitialState<C>(orderBy: C, rowsPerPage: nat): (s: TableState<C>)
    ensures s.page == 0 && s.order == Asc && s.orderBy == orderBy
    ensures s.filterName == "" && s.rowsPerPage == rowsPerPage
  {
    TableState(0, Asc, orderBy, "", rowsPerPage)
  }

  /** `handleRequestSort`: a click on the column sorted ascending turns it
      descending; any other click sorts the clicked column ascending. */
  function RequestSort<C(==)>(s: TableState<C>, property: C): (r: TableState<C>)
    ensures r.orderBy == property
    ensures r.order == Desc <==> s.orderBy == property && s.order == Asc
    ensures r.page == s.page && r.filterName == s.filterName && r.rowsPerPage == s.rowsPerPage
  {
    var isAsc := s.orderBy == property && s.order == Asc;
    s.(order := if isAsc then Desc else Asc, orderBy := property)
  }

  /** Clicking the sorted column flips its direction, so a second click on
      it restores the state; two clicks on another column leave it sorted
      descending. */
  lemma RequestSortTwice<C>(s: TableState<C>, property: C)
    ensures s.orderBy == property ==> RequestSort(s, property).order != s.order
    ensures s.orderBy == property ==> RequestSort(RequestSort(s, property), property) == s
    ensures s.orderBy != property ==> RequestSort(s, property).order == Asc
    ensures s.orderBy != property ==> RequestSort(RequestSort(s, property), property).order == Desc
  {
  }

  /** `handleChangeRowsPerPage`: the new page size, back on the first page. */
  function ChangeRowsPerPage<C>(s: TableState<C>, value: nat): (r: TableState<C>)
    ensures r.page == 0 && r.rowsPerPage == value
    ensures r.order == s.order && r.orderBy == s.orderBy && r.filterName == s.filterName
  {
    s.(rowsPerPage := value, page := 0)
  }
}

=== FILE: text.dfy ===
/** The case-insensitive "contains" test of the list pages' search box:
    `field.toLowerCase().indexOf(query.toLowerCase()) !== -1`. */
module Text {

  /** `toLowerCase` on one character, for the ASCII letters. */
  function LowerChar(c: char): char {
    if 'A' <= c <= 'Z' then (c as int + 32) as char else c
  }

  /** `toLowerCase` on a string; `LowerAt` says what each character becomes. */
  function Lower(s: string): (r: string)
    ensures |r| == |s|
  {
    if |s| == 0 then [] else [LowerChar(s[0])] + Lower(s[1..])
  }

  /** Each character of the lower-cased string is its own character
      lower-cased. */
  lemma {:induction false} LowerAt(s: string)
    ensures forall i :: 0 <= i < |s| ==> Lower(s)[i] == LowerChar(s[i])
  {
    if |s| > 0 {
      LowerAt(s[1..]);
    }
  }

  /** Lower-casing an already lower-cased string changes nothing. */
  lemma {:induction false} LowerIdempotent(s: string)
    ensures Lower(Lower(s)) == Lower(s)
  {
    if |s| > 0 {
      LowerIdempotent(s[1..]);
      assert Lower(s)[1..] == Lower(s[1..]);
    }
  }

  /** `needle` occurs in `hay` starting at position `i`. */
  predicate OccursAt(hay: string, needle: string, i: nat) {
    i + |needle| <= |hay| && hay[i..i + |needle|] == needle
  }

  /** The first occurrence of `needle` in `hay` at or after `from`, or -1.
      What it finds is stated by `SearchFromFirst`. */
  function SearchFrom(hay: string, needle: string, from: nat): (r: int)
    requires from <= |hay|
    ensures r == -1 || (from <= r <= |hay| && OccursAt(hay, needle, r))
    decreases |hay| - from
  {
    if OccursAt(hay, needle, from) then from
    else if from + |needle| >= |hay| then -1
    else SearchFrom(hay, needle, from + 1)
  }

  /** `SearchFrom` answers -1 exactly when no occurrence starts at or after
      `from`, and otherwise finds the first one. */
  lemma {:induction false} SearchFromFirst(hay: string, needle: string, from: nat)
    requires from <= |hay|
    ensures SearchFrom(hay, needle, from) == -1 <==> forall i :: from <= i ==> !OccursAt(hay, needle, i)
    ensures forall i :: from <= i < SearchFrom(hay, needle, from) ==> !OccursAt(hay, needle, i)
    decreases |hay| - from
  {
    if !OccursAt(hay, needle, from) && from + |needle| < |hay| {
      SearchFromFirst(hay, needle, from + 1);
    }
  }

  /** `String.prototype.indexOf(needle)`: the first position where `needle`
      occurs in `hay`, or -1; `StrIndexOfFirst` states that it is the first. */
  function StrIndexOf(hay: string, needle: string): (r: int)
    ensures r == -1 || (0 <= r <= |hay| && OccursAt(hay, needle, r))
  {
    SearchFrom(hay, needle, 0)
  }

  /** `indexOf` answers -1 exactly when `needle` occurs nowhere in `hay`;
      otherwise no occurrence starts before the position it answers. */
  lemma StrIndexOfFirst(hay: string, needle: string)
    ensures StrIndexOf(hay, needle) == -1 <==> forall i :: 0 <= i ==> !OccursAt(hay, needle, i)
    ensures forall i :: 0 <= i < StrIndexOf(hay, needle) ==> !OccursAt(hay, needle, i)
  {
    SearchFromFirst(hay, needle, 0);
  }

  /** `needle` occurs at the start of `hay` or of one of its suffixes. */
  predicate OccursIn(hay: string, needle: string)
    decreases |hay|
  {
    OccursAt(hay, needle, 0) || (|hay| > 0 && OccursIn(hay[1..], needle))
  }

  /** The search-box test `field.toLowerCase().indexOf(query.toLowerCase())
      !== -1`; `MatchesIff` shows it is exactly the `indexOf` test. */
  predicate Matches(field: string, query: string) {
    OccursIn(Lower(field), Lower(query))
  }

  /** An occurrence in a suffix is an occurrence one position further on. */
  lemma OccursShift(hay: string, needle: string, i: nat)
    requires |hay| > 0
    ensures OccursAt(hay[1..], needle, i) <==> OccursAt(hay, needle, i + 1)
  {
    if i + |needle| <= |hay[1..]| {
      assert hay[1..][i..i + |needle|] == hay[i + 1..i + 1 + |needle|];
    }
  }

  /** `OccursIn` holds exactly when `needle` occurs at some position. */
  lemma {:induction false} OccursInSomewhere(hay: string, needle: string)
    ensures OccursIn(hay, needle) <==> exists i :: 0 <= i && OccursAt(hay, needle, i)
    decreases |hay|
  {
    if |hay| > 0 {
      OccursInSomewhere(hay[1..], needle);
      if OccursIn(hay[1..], needle) {
        var i :| 0 <= i && OccursAt(hay[1..], needle, i);
        OccursShift(hay, needle, i);
      }
      if exists i :: 0 <= i && OccursAt(hay, needle, i) {
        var i :| 0 <= i && OccursAt(hay, needle, i);
        if i > 0 {
          OccursShift(hay, needle, i - 1);
        }
      }
    } else {
      if exists i :: 0 <= i && OccursAt(hay, needle, i) {
        var i :| 0 <= i && OccursAt(hay, needle, i);
        assert |needle| == 0 && i == 0;
      }
    }
  }

  /** `Matches` is the `indexOf` test; the empty query matches every field,
      and neither the field's nor the query's letter case matters. */
  lemma MatchesIff(field: string, query: string)
    ensures Matches(field, query) <==> StrIndexOf(Lower(field), Lower(query)) != -1
    ensures Matches(field, "")
    ensures Matches(Lower(field), query) == Matches(field, query)
    ensures Matches(field, Lower(query)) == Matches(field, query)
  {
    OccursInSomewhere(Lower(field), Lower(query));
    StrIndexOfFirst(Lower(field), Lower(query));
    assert OccursAt(Lower(field), Lower(""), 0);
    LowerIdempotent(field);
    LowerIdempotent(query);
  }
}
